=== FILE: README.md ===
# Grape1 data pipeline — a Dafny model

This project models the data-handling core of `hamsci_grape1/grape1.py`. The
module reads the daily files of Grape1 receivers: Doppler and amplitude
recordings of the WWV and CHU time-standard stations. It covers these steps:

- **Inventory** (`DataInventory.__init__`). File basenames
  `<datetime>_N<node>_G_<grid>_FRQ_<label>.csv` are split into records. Node
  tags are parsed, names with `G1` labels are dropped, and station labels such
  as `WWV10` become frequencies in Hz. The logged node numbers are collected
  and sorted.
- **Node table** (`GrapeNodes`). Each node gets the status "Data logged" or
  "No data logged".
- **Loading** (`GrapeData.__load_raw`). This step selects the files of one
  node and frequency inside a half-open time window, then concatenates their
  rows. The centre frequency is subtracted from the rows and they are sorted
  by time. Last, the call sign, latitude and longitude are resolved.
- **Resampling** (`resample_data`). The start and end are truncated to whole
  seconds. The grid loop steps from start to end by the resample rate. Every
  column is linearly interpolated over Julian dates at the grid times.
  Interpolating outside the sampled range is an error.
- **Power and filtering.** `Power_dB = 20 log10(Vpk)` is added to the
  resampled set. `Filter.__init__` converts periods in minutes to critical
  frequencies in Hz. The inputs to the Butterworth design are validated.
  `filter_data` derives the sampling rate from the smallest time step and
  filters the listed columns one after another.

Modules, one per file:

| file | module | models |
|---|---|---|
| `results.dfy` | `Results` | `Option`, `Result` and the error cases each step can raise |
| `seqs.dfy` | `Seqs` | filtering, sorting by key, flattening, sorted unique values |
| `text.dfy` | `Text` | `str.split`, `str.strip`, `int(str)` |
| `inventory.dfy` | `DataInventory` | filename parsing and the inventory |
| `nodes.dfy` | `GrapeNodes` | the node table and its status column |
| `frames.dfy` | `Frames` | frames: a `UTC` column plus named real columns |
| `load.dfy` | `Loading` | file selection, merging, metadata |
| `interp.dfy` | `Interpolation` | one-dimensional linear interpolation |
| `resample.dfy` | `Resample` | the resampling grid and the resampled frame |
| `filter.dfy` | `Filtering` | critical frequencies, filter-design checks, the column loop |
| `grapedata.dfy` | `GrapeData` | the named data sets and the constructor pipeline |

Several things are parameters of the model, not computed by it:

- the directory listing (the list of basenames);
- `pd.to_datetime` of a filename token (`toTime`);
- the contents of each data file (`contents`);
- numpy's `log10`;
- `filtfilt` with the designed filter (`apply`). The model only requires that
  `apply` returns a column as long as its input.

Timestamps are integer nanoseconds, as pandas stores them.

## Model

| member | source | states |
|---|---|---|
| Text.Split | hamsci_grape1/grape1.py:107 | there is at least one piece and no piece contains the separator |
| Text.JoinSplit | hamsci_grape1/grape1.py:107 | joining the pieces with the separator gives back the name that was split |
| Text.SplitJoin | hamsci_grape1/grape1.py:107 | splitting undoes joining whenever no piece holds the separator |
| Text.Strip | hamsci_grape1/grape1.py:110 | the result is a contiguous middle part of the input; only characters of the set are removed, from both ends, and neither end of the result is in the set |
| Text.StripIdempotent | hamsci_grape1/grape1.py:119 | stripping twice strips nothing more |
| Text.StripAround | hamsci_grape1/grape1.py:110 | stripping off `prefix + core + suffix` gives back the core when every character around it is in the set and its two ends are not |
| Text.StripTrailing | hamsci_grape1/grape1.py:110 | stripping the suffix's own characters off `label + suffix` gives back the label when neither end of the label is one of them |
| Text.StripLeading | hamsci_grape1/grape1.py:119 | stripping off `prefix + core` gives back the core when the prefix lies wholly in the set and neither end of the core does, as with the `N` before a node number |
| Text.ParseInt | hamsci_grape1/grape1.py:120 | `int(str)` succeeds exactly on an optionally signed string of decimal digits |
| Text.ParseShowInt | hamsci_grape1/grape1.py:120 | reading back the decimal form of any integer gives that integer |
| Text.DigitsIgnoreZeros | hamsci_grape1/grape1.py:120 | leading zeros do not change the value of a string of digits |
| Text.ParsePadded | hamsci_grape1/grape1.py:120 | a zero-padded decimal numeral reads as its number, with or without a `+`, and negated after a `-` |
| DataInventory.ApplyRenamesLookup | hamsci_grape1/grape1.py:124-131 | applying the renames one after another equals one table lookup: a listed label gets its frequency, anything else is kept |
| DataInventory.Normalize | hamsci_grape1/grape1.py:124-131 | exactly the eight station labels become their frequency in Hz; every other label stays a string |
| DataInventory.ParseName | hamsci_grape1/grape1.py:107-120 | a basename yields a record exactly when it has six fields, a datetime that parses and a node tag that parses as an integer within `int64` |
| DataInventory.RecordsOf | hamsci_grape1/grape1.py:117-121 | the records are exactly those of the names that parse |
| DataInventory.Records | hamsci_grape1/grape1.py:117-121 | a record is in the inventory exactly when it comes from a listed name whose label has no `G1` |
| DataInventory.LoggedNodes | hamsci_grape1/grape1.py:137-140 | the logged nodes are strictly increasing and are exactly the node numbers of the records |
| DataInventory.ColumnsConvert | hamsci_grape1/grape1.py:107-121 | the column-wise conversions (six columns after padding, datetimes, node numbers, no padded name) all succeed exactly when the listing is non-empty and every name converts on its own |
| DataInventory.BuildInventory | hamsci_grape1/grape1.py:102-140 | succeeds exactly when the listing is non-empty and every name converts. Otherwise the error is that of the first column step to fail: naming the six columns when the widest name does not have six fields, then a datetime, then a node number, then a padded frequency. On success it holds the records and the logged nodes above |
| DataInventory.ShortNameFails | hamsci_grape1/grape1.py:107-121 | a name with fewer than six fields always fails the inventory, and when another name has six fields the error is not the column count |
| DataInventory.NodeTagRoundTrip | hamsci_grape1/grape1.py:119-120 | a node tag `N` + zeros + digits, zero-padded or not, holds no `_`; it parses back to its node number when that fits `int64`, and is rejected otherwise, as the cast to numpy's integer type does |
| DataInventory.NameRoundTrip | hamsci_grape1/grape1.py:107-131 | parsing a basename written from its parts, with a zero-padded node tag, gives a record of exactly those parts, with the label normalised, when the node number fits `int64`; otherwise it gives no record |
| Frames.Assign | hamsci_grape1/grape1.py:315 | `df[name] = col` keeps the rows and times, adds the name only when it is new, reads back `col` under that name, and leaves every other column as it was |
| Frames.AppendColumn | hamsci_grape1/grape1.py:315 | adding a new column keeps the times and row count and extends every row by that row's entry of the column |
| Frames.ReplacedNamed | hamsci_grape1/grape1.py:315 | after an existing column is overwritten, it reads back the new values and every other column reads as before |
| Frames.AppendedNamed | hamsci_grape1/grape1.py:315 | after a new column is appended, it reads back the new values and every earlier column reads as before |
| Frames.IndexOf | hamsci_grape1/grape1.py:315 | a column is found exactly when the frame has it, at its first position |
| GrapeNodes.UpdateStatus | hamsci_grape1/grape1.py:184-194 | every row gets a status, "Data logged" exactly when its number is a logged node; every other field of each row is unchanged |
| GrapeNodes.MakeNodes | hamsci_grape1/grape1.py:166-182 | an empty list of logged nodes leaves the table as read; otherwise every row gets its status |
| GrapeNodes.UpdateAfterMake | hamsci_grape1/grape1.py:178-194 | a later `update_status` overwrites the whole status column, so its result does not depend on the list given to the constructor; with the same list it leaves the constructed table unchanged |
| GrapeNodes.Lookup | hamsci_grape1/grape1.py:367 | `.loc[node]` finds a row exactly when some row has that number, and the row it finds is the first with that number |
| GrapeData.StatusFromInventory | hamsci_grape1/grape1.py:136-140 | with the logged nodes of an inventory, a node is marked logged exactly when some inventory record belongs to it |
| Seqs.Filter | hamsci_grape1/grape1.py:330-345 | a boolean mask keeps each element satisfying the predicate as often as it occurs, and nothing else |
| Seqs.SortByOrders | hamsci_grape1/grape1.py:346 | `sort_values` puts the rows in ascending key order |
| Seqs.SortByPermutes | hamsci_grape1/grape1.py:346 | `sort_values` gives a permutation of its input: every row as often as before |
| Seqs.InsertSorted | hamsci_grape1/grape1.py:346 | inserting one element into a sorted list keeps it sorted |
| Seqs.SortedUnique | hamsci_grape1/grape1.py:137-138 | `unique` then `sort` gives a strictly increasing list of exactly the values present |
| Loading.Subset | hamsci_grape1/grape1.py:329-335 | the subset holds each record of that node and frequency as often as the inventory does, and no other record |
| Loading.Earliest | hamsci_grape1/grape1.py:338 | `min` of the datetimes: a lower bound that some file attains |
| Loading.Latest | hamsci_grape1/grape1.py:341 | `max` of the datetimes: an upper bound that some file attains |
| Loading.Window | hamsci_grape1/grape1.py:337-341 | the window fails exactly when a default is needed on an empty subset; given ends are kept and missing ones become the earliest and latest datetimes |
| Loading.SelectFiles | hamsci_grape1/grape1.py:329-346 | the selection is ordered by datetime and holds exactly the matching records with `start <= datetime < end`, each as often as the inventory has it |
| Loading.SelectedFiles | hamsci_grape1/grape1.py:344 | a file is selected exactly when it matches node and frequency and lies in the window |
| Loading.LatestFileExcluded | hamsci_grape1/grape1.py:340-344 | with the default end, the latest file of the node and frequency is never loaded |
| Loading.OffsetRestore | hamsci_grape1/grape1.py:359 | subtracting the centre frequency and adding it back are inverse to each other |
| Loading.Pieces | hamsci_grape1/grape1.py:349-361 | every piece is non-empty, and there are no pieces exactly when every file is empty |
| Loading.MergeFiles | hamsci_grape1/grape1.py:362-363 | concatenation fails exactly when every selected file is empty; otherwise the rows are sorted by time and are a permutation of the offset rows |
| Loading.PiecesRestore | hamsci_grape1/grape1.py:349-362 | adding the centre frequency back to the pieces gives all file rows, in order, with the empty files contributing nothing |
| Loading.MergedRows | hamsci_grape1/grape1.py:349-363 | the merged series, with the centre frequency added back, is a permutation of all rows of the selected files |
| Loading.RestoreCount | hamsci_grape1/grape1.py:359 | each restored row occurs as often as the offset row it came from |
| Loading.MapPermutation | hamsci_grape1/grape1.py:363 | sorting commutes with restoring the frequency, up to permutation |
| Loading.Attribute | hamsci_grape1/grape1.py:367 | a table lookup succeeds exactly when some row has the node's number and returns the field of the first such row; an unknown node is the `KeyError` |
| Loading.CallSignAsWritten | hamsci_grape1/grape1.py:366-369 | as written: a given call sign, or a missing node table, gives the empty string; otherwise the table's call sign |
| Loading.CallSignDropped | hamsci_grape1/grape1.py:366-369 | a call sign passed by the caller never reaches the label |
| Loading.CallSign | hamsci_grape1/grape1.py:366-369 | corrected: the caller's call sign if given, otherwise the table's, otherwise empty |
| Loading.CallSignCorrected | hamsci_grape1/grape1.py:366-369 | the correction differs from the code only when a call sign is given, and fails on exactly the same inputs |
| Loading.Coordinate | hamsci_grape1/grape1.py:374-378 | a given coordinate is kept; a missing one comes from the table when there is one, failing exactly for an unknown node |
| Loading.ResolveMeta | hamsci_grape1/grape1.py:365-391 | fails exactly when a table is given, the node is not in it, and something must be looked up; given values are kept (for the call sign, with the corrected behaviour of the lines 366-369 finding) and missing ones come from the node's row |
| Loading.RawFrame | hamsci_grape1/grape1.py:362 | the merged samples as a well-formed frame with columns `Freq`, `Vpk`, one row per sample |
| Loading.RawFrameRoundTrip | hamsci_grape1/grape1.py:362 | a raw frame holds the samples and nothing else, in both directions |
| Loading.LoadRaw | hamsci_grape1/grape1.py:320-391 | the first failing step (select, merge, metadata) decides the error; on success the raw set is the merged rows, non-empty and in time order, and the metadata is the resolved one |
| Interpolation.Locate | hamsci_grape1/grape1.py:433-434 | the segment found holds the query point |
| Interpolation.LocateUnique | hamsci_grape1/grape1.py:433-434 | on sorted sample times that segment is the only one |
| Interpolation.InterpAtSample | hamsci_grape1/grape1.py:433-434 | the interpolant passes through every sample |
| Interpolation.InterpOnSegment | hamsci_grape1/grape1.py:433-434 | between two consecutive samples the interpolant is the straight line through them |
| Interpolation.InterpBounded | hamsci_grape1/grape1.py:433-434 | interpolated values stay within any bounds the samples keep |
| Interpolation.InterpLinear | hamsci_grape1/grape1.py:433-434 | samples of a straight line are reproduced exactly |
| Interpolation.LocateOrderOnly | hamsci_grape1/grape1.py:397 | the segment depends only on the order of the query among the sample times |
| Interpolation.InterpAffine | hamsci_grape1/grape1.py:397 | interpolation does not depend on the unit or origin of the time axis, so Julian dates and nanoseconds agree |
| Resample.WholeSecond | hamsci_grape1/grape1.py:405-419 | the truncated time is a whole second within one second before the timestamp |
| Resample.WholeSecondUnique | hamsci_grape1/grape1.py:405-419 | that whole second is the only one, so truncating a whole second keeps it |
| Resample.Grid | hamsci_grape1/grape1.py:421-423 | the grid starts at the start, stays below the end until its last entry, its last entry reaches the end, and its first and last entries bound all others |
| Resample.GridSteps | hamsci_grape1/grape1.py:421-423 | consecutive grid times are one rate apart |
| Resample.GridClosedForm | hamsci_grape1/grape1.py:421-423 | the i-th grid time is `start + i * rate` |
| Resample.GridLength | hamsci_grape1/grape1.py:421-423 | the grid has one more entry than the number of rate steps needed to reach the end |
| Resample.GridIncreasing | hamsci_grape1/grape1.py:421-423 | a positive rate gives strictly increasing grid times |
| Resample.GridSameEnd | hamsci_grape1/grape1.py:421-423 | two ends that the same steps overshoot give the same grid |
| Resample.MinTime | hamsci_grape1/grape1.py:401 | the earliest timestamp: a lower bound some row attains |
| Resample.MaxTime | hamsci_grape1/grape1.py:402 | the latest timestamp: an upper bound some row attains |
| Resample.InterpolateOnGrid | hamsci_grape1/grape1.py:428-437 | succeeds exactly when there are two samples and the grid lies within the sampled range; the frame has the grid as `UTC` and the same columns |
| Resample.RangeCheckJulian | hamsci_grape1/grape1.py:397-434 | comparing grid ends with the sampled range in Julian dates, as `interp1d` does, is the same as comparing nanosecond times |
| Resample.InterpolateOnGridOk | hamsci_grape1/grape1.py:405-434 | on a grid starting at the truncated first time, interpolation succeeds exactly when there are two samples, the first time is a whole second and the grid ends within the last |
| Resample.ResampleRows | hamsci_grape1/grape1.py:393-437 | a resampled frame is the time-sorted rows interpolated at every grid time, with the same columns |
| Resample.ResampleFrame | hamsci_grape1/grape1.py:393-437 | an empty frame is `EmptySeries`; on success the columns are kept, the times are the grid from the truncated first to the truncated last timestamp, and named columns need two samples |
| Resample.ResampleOk | hamsci_grape1/grape1.py:396-437 | resampling succeeds exactly when there are rows, the grid loop ends, and, with named columns, there are two samples and the grid lies within the sampled range |
| Resample.FractionalStartFails | hamsci_grape1/grape1.py:405-434 | a first timestamp with a sub-second part always fails: its truncated start lies before the first sample |
| Resample.ResampleValue | hamsci_grape1/grape1.py:429-435 | each resampled value is the interpolant of its column over Julian dates at the grid time |
| Resample.ResampleInterpolates | hamsci_grape1/grape1.py:397-435 | each resampled value is the interpolant over nanosecond times |
| Resample.ResampleAtSample | hamsci_grape1/grape1.py:429-435 | at a grid time where there is a sample, the resampled value is the sample's value |
| Resample.ResampleBounded | hamsci_grape1/grape1.py:429-435 | resampled values stay within any bounds the column's samples keep |
| Resample.ResampleOnGrid | hamsci_grape1/grape1.py:393-437 | a frame already on a whole-second grid of the rate is resampled to itself |
| Resample.GridOfSteps | hamsci_grape1/grape1.py:421-423 | times one rate apart are exactly the grid from their first to their last |
| Resample.ResampleIdempotent | hamsci_grape1/grape1.py:393-437 | at a whole-second rate, resampling a resampled frame changes nothing |
| Filtering.LowerChar | hamsci_grape1/grape1.py:241 | no upper-case ASCII letter is left; an upper-case letter becomes the lower-case letter at the same place in the alphabet, and every other character is kept |
| Filtering.LowerIdempotent | hamsci_grape1/grape1.py:241 | lowering a lowered name changes nothing |
| Filtering.BandOf | hamsci_grape1/grape1.py:241 | a band name is recognised exactly when its lower-case form is one of that band's aliases |
| Filtering.BandOfNames | hamsci_grape1/grape1.py:241 | a name denotes a band exactly when it is one of that band's aliases, ignoring case |
| Filtering.BandNames | hamsci_grape1/grape1.py:229-230 | each documented `btype` names its band |
| Filtering.BandOfIgnoresCase | hamsci_grape1/grape1.py:241 | a name and its lower-case form denote the same band |
| Filtering.Cutoff | hamsci_grape1/grape1.py:233 | a positive period in minutes gives a positive frequency |
| Filtering.CutoffPeriod | hamsci_grape1/grape1.py:233 | the conversion is its own inverse, so a frequency converts back to its period without loss |
| Filtering.CutoffDecreasing | hamsci_grape1/grape1.py:233 | a longer period is exactly a lower frequency |
| Filtering.CriticalFrequencies | hamsci_grape1/grape1.py:233-236 | one positive frequency per period: in order, except that a pair is swapped |
| Filtering.PeriodsRoundTrip | hamsci_grape1/grape1.py:233-236 | converting the critical frequencies once more gives back the periods in their given order |
| Filtering.PairOrder | hamsci_grape1/grape1.py:235-236 | after the swap a pair of frequencies increases exactly when the periods were given increasing |
| Filtering.SmallestStep | hamsci_grape1/grape1.py:449 | the smallest step is a lower bound on the steps and is one of them |
| Filtering.SamplingRate | hamsci_grape1/grape1.py:449 | fewer than two times is an error, a zero step is the division by zero, and otherwise the rate is one second over the smallest step; it is positive exactly when the times increase |
| Filtering.EvenRate | hamsci_grape1/grape1.py:449 | times one rate apart have sampling rate one second over the rate |
| Filtering.MakeFilter | hamsci_grape1/grape1.py:233-241 | the design's checks run in a fixed order; a designed filter has frequencies strictly between 0 and Nyquist, increasing for a pair, and the number of frequencies its band needs |
| Filtering.SingleCutoff | hamsci_grape1/grape1.py:233-241 | a low- or high-pass filter from one period is designed exactly when rate, period and order are valid and the cutoff is below Nyquist |
| Filtering.BandCutoffs | hamsci_grape1/grape1.py:233-241 | a band filter from two periods is designed exactly when rate and order are valid, the periods increase, and the higher frequency is below Nyquist |
| Filtering.Repeat | hamsci_grape1/grape1.py:452-453 | filtering any number of times keeps the length; zero times is the identity |
| Filtering.FilterColumns | hamsci_grape1/grape1.py:452-453 | fails exactly when a listed column is missing or the series is no longer than `filtfilt`'s padding (`3 * max(len(a), len(b))`, computed by the helper `Filtering.PadLength`); otherwise names and times are kept, unlisted columns are untouched, and each listed column is filtered once per listing |
| Filtering.FilterColumnsStep | hamsci_grape1/grape1.py:452-453 | one turn of the loop: filtering the first listed column and then the rest gives each listed column filtered once per listing, and leaves the others alone |
| Filtering.StepColumn | hamsci_grape1/grape1.py:452-453 | for one listed column, filtering once in the first turn and as often as the rest lists it adds up to once per listing |
| Filtering.FilterOnce | hamsci_grape1/grape1.py:452-453 | with distinct columns listed, each listed column is filtered exactly once |
| GrapeData.ResampleData | hamsci_grape1/grape1.py:393-442 | a missing input set is an error; otherwise the output set is the resampled input, stored under the output name, and every other set is kept |
| GrapeData.AddPower | hamsci_grape1/grape1.py:315 | fails exactly without a `Vpk` column; otherwise adds or replaces `Power_dB` as `20 log10(Vpk)` row by row (computed by the helper `GrapeData.Decibels`) and changes no other column |
| GrapeData.PowerOrder | hamsci_grape1/grape1.py:315 | for a `log10` that increases, the power column orders rows exactly as their positive amplitudes do |
| GrapeData.PowerDecade | hamsci_grape1/grape1.py:315 | for a `log10` that turns products into sums and is one at ten, ten times the amplitude is 20 dB more power |
| GrapeData.FilterFrame | hamsci_grape1/grape1.py:448-453 | the rate comes from the frame's own times and the filter from that rate; the result keeps names and times |
| GrapeData.FilterDataAsWritten | hamsci_grape1/grape1.py:444-458 | as written: the set read is `resampled` whatever input is named; the output is stored and every other set is kept |
| GrapeData.FilterIgnoresInput | hamsci_grape1/grape1.py:444-448 | naming `raw` as input still filters `resampled`, so the output does not carry the raw set's times |
| GrapeData.FilterData | hamsci_grape1/grape1.py:444-458 | corrected: the named input set is filtered into the output set with the same names and times; every other set is kept |
| GrapeData.FilterDataDefault | hamsci_grape1/grape1.py:444-448 | with the default input, the correction agrees with the code as written |
| GrapeData.ResampleRaw | hamsci_grape1/grape1.py:311-312 | the raw set is kept and its resampled form is added, or the resampling error is raised |
| GrapeData.PowerStage | hamsci_grape1/grape1.py:315 | the power column goes into the resampled set in place; all other sets are kept |
| GrapeData.Process | hamsci_grape1/grape1.py:306-318 | on success exactly the sets `raw`, `resampled` and `filtered` exist and `raw` is as loaded; a resampling error is the constructor's error |
| GrapeData.Build | hamsci_grape1/grape1.py:300-318 | a loading error stops the constructor; otherwise the constructor succeeds exactly when processing does, and keeps the loaded metadata |
| GrapeData.ResampledRate | hamsci_grape1/grape1.py:421-449 | the sampling rate of a resampled set of two or more rows is one second over the resample rate, which is positive |
| GrapeData.ProcessSteps | hamsci_grape1/grape1.py:311-318 | the resampled set is the resampled raw set with power added, and the filtered set is that set filtered |
| GrapeData.ProcessResult | hamsci_grape1/grape1.py:300-318 | after the constructor the rate is positive and there were two raw samples; the resampled set has `Freq`, `Vpk`, `Power_dB` on the grid; each filtered column is the resampled one passed once through the filter designed for one over the rate |
| GrapeData.PowerColumns | hamsci_grape1/grape1.py:315 | adding power to a raw-shaped set gives exactly the columns `Freq`, `Vpk`, `Power_dB`, leaving the first two as they were |
| GrapeData.FilterStep | hamsci_grape1/grape1.py:448-453 | a filtered set needed two rows, and keeps the names and times |
| GrapeData.FilterDesign | hamsci_grape1/grape1.py:449-453 | at the resampled rate the filter is designed and each default column is filtered once |
| GrapeData.StepsPower | hamsci_grape1/grape1.py:311-315 | a resampled set of two or more rows with power added comes from a positive rate, has sampling rate one over that rate, and holds the resampled columns and the power column |
| GrapeData.StepsFilter | hamsci_grape1/grape1.py:448-453 | at that sampling rate, the filtered set keeps the times, and each default column is the resampled one passed once through the filter |
| GrapeData.StepsResult | hamsci_grape1/grape1.py:311-318 | resampling, adding power and filtering together give the sets the constructor promises |

## Left out

- `DataInventory.plot_inventory`, `GrapeNodes.status_table`, `plot_map`, `Filter.plotResponse` and the `GrapeData` plotting methods: rendering only.
- Display labels (`label` strings of the data sets and `meta['label']`): formatting only. The model keeps the call sign that goes into the label.
- `tqdm` progress and `print` calls.
- `glob`, `pd.read_csv` and `pd.to_datetime`: the listing, the file contents and the datetime conversion are parameters.
- The `inventory is None` branch of `__load_raw`: building the inventory from a directory reads the file system. `BuildInventory` models what it computes from the names.
- The numerical Butterworth design and `filtfilt`. `MakeFilter` models the argument checks of the design and the padding length; the filtering itself is the parameter `apply`.
- `Filtering.MakeFilter`: a zero period gives an infinite frequency, which the design rejects at a later check; the model reports `NonPositivePeriod` for it. The design's checks for `Wn` are modelled on real numbers, so NaN and infinity are not represented.
- `Filtering.LowerChar`: band names are lower-cased for ASCII letters only; the design lowers full Unicode.
- `GrapeData.Decibels`: `log10` is a parameter. The power lemmas assume only that it increases, turns products into sums and is one at ten on positive reals, so a zero or negative amplitude (minus infinity or NaN in numpy) has no stated power.
- Floating point. Times are exact integers and values are exact reals, so Julian-date rounding and float error in interpolation are not modelled. `Interpolation.InterpAffine` shows that, in exact arithmetic, the Julian-date axis and the nanosecond axis give the same values.
- 64-bit nanosecond overflow of timestamps and of the grid loop. (Node numbers are bounded: `DataInventory.NodeNumber` rejects values outside `int64`, as `astype(int)` does on platforms where numpy's default integer has 64 bits.)
- `Seqs.SortBy`: the sort is stable. `sort_values` does not promise a stable order, so among equal keys the model fixes one of the orders pandas may produce.
- `GrapeNodes.Lookup`: a node number that appears twice in the node table makes `.loc` return several rows; the model takes the first.
- Extra columns in data files: each file is modelled with the fixed columns `UTC`, `Freq`, `Vpk`.
- `Text.ParseInt`: accepts an optional sign and ASCII digits; the surrounding whitespace, underscores and non-ASCII digits that `int()` also accepts are not modelled.
- `DataInventory.BuildInventory`: each failing column step is one error value, not the Python exception it raises (`ValueError` for the column count, the datetime and the node number; `TypeError` from `~` on the NaN of a padded frequency). An empty listing splits into no columns, so naming the six columns fails and the model reports `FieldCount` for it.
- `Resample.InterpolateOnGrid`: fewer than two samples is the error `TooFewSamples`. This follows the scipy releases whose `interp1d` demands two points for linear interpolation; later releases accept a single point and return its value at its own time, so a one-row frame on a whole second resamples to one row there.
- `Resample.InterpolateOnGridOk`: its "two samples" condition is that of the same scipy releases; with a release that accepts one point, one sample at the grid's only time also succeeds.
- `Resample.ResampleOk`: the "two samples" side of the iff is that of the same scipy releases, for the same reason.
- `Resample.ResampleFrame`: the one-sample case follows the same scipy releases. Also, when the first whole second is before the last, the loop at lines 422-423 cannot reach the end time unless the rate is positive. With a zero rate it never ends, so `resample_data` and the constructor do not return. With a negative rate the grid walks back in time until the `datetime` passes year 1 and Python raises `OverflowError`, unless memory runs out first. The model reports `GridDiverges` for both cases.

Where the code and its documentation differ, the model follows the code:

- an unrecognised frequency label is kept as a string, and such a file never matches a numeric frequency;
- interpolating outside the sampled range is an error, not a clamp;
- a filter order of 0 is accepted.

## Findings

| source | as written | input that shows it | evidently intended | confidence | as-written member | corrected member |
|---|---|---|---|---|---|---|
| hamsci_grape1/grape1.py:366-369 | a call sign passed by the caller is replaced by the empty string | `call_sign='W2NAF'` with any node table | the caller's call sign is used in the label, and only a missing one is looked up | high (not executed) | Loading.CallSignAsWritten (shown by Loading.CallSignDropped) | Loading.CallSign (proved by Loading.CallSignCorrected) |
| hamsci_grape1/grape1.py:444-448 | `filter_data` always reads the `resampled` set and ignores `data_set_in` | `data_set_in='raw'` when `raw` and `resampled` have different times | the set named by `data_set_in` is filtered | high (not executed) | GrapeData.FilterDataAsWritten (shown by GrapeData.FilterIgnoresInput) | GrapeData.FilterData (proved by GrapeData.FilterDataDefault) |

The rest of the model uses the corrected members: `Loading.ResolveMeta` takes
the call sign from `Loading.CallSign`, and `GrapeData.Process` filters with
`GrapeData.FilterData`. The constructor always filters the default input
`resampled`, so there the two versions of `filter_data` agree. The call sign
does differ: a constructor given `call_sign` loses it as written.

=== FILE: filter.dfy ===
/** `Filter` and the column loop of `GrapeData.filter_data`: a Butterworth
    design from cutoff periods in minutes, the argument checks the design
    routine makes, the padding check of zero-phase filtering, and the
    replacement of the chosen columns by their filtered values. The numerics
    of the design and of the filtering are a parameter. */
module Filtering {
  import opened Results
  import opened Frames

  datatype Band = Lowpass | Highpass | Bandpass | Bandstop

  /** A designed filter: order, critical frequencies in Hz, band, sampling
      rate in samples per second. */
  datatype FilterSpec = FilterSpec(order: nat, wn: seq<real>, band: Band, fs: real)

  /** ASCII lower case, as `str.lower` acts on the band names: no upper-case
      letter survives, an upper-case letter becomes the lower-case letter at
      the same place in the alphabet, and every other character is kept. */
  function LowerChar(c: char): (d: char)
    ensures !('A' <= d <= 'Z')
    ensures 'A' <= c <= 'Z' ==> 'a' <= d <= 'z' && d as int - 'a' as int == c as int - 'A' as int
    ensures !('A' <= c <= 'Z') ==> d == c
  {
    if 'A' <= c <= 'Z' then (c as int + 32) as char else c
  }

  function Lower(s: string): (r: string)
    ensures |r| == |s|
    ensures forall i :: 0 <= i < |s| ==> r[i] == LowerChar(s[i])
  {
    seq(|s|, i requires 0 <= i < |s| => LowerChar(s[i]))
  }

  /** Lowering twice lowers nothing more. */
  lemma LowerIdempotent(s: string)
    ensures Lower(Lower(s)) == Lower(s)
  {
  }

  /** The names the design routine accepts for a band. */
  function NamesOf(band: Band): set<string> {
    match band
    case Lowpass => {"l", "low", "lowpass", "lp"}
    case Highpass => {"h", "high", "highpass", "hp"}
    case Bandpass => {"band", "bandpass", "pass", "bp"}
    case Bandstop => {"bands", "bandstop", "stop", "bs"}
  }

  /** The band a name denotes, ignoring case. */
  function BandOf(name: string): (b: Option<Band>)
    ensures b.Some? ==> Lower(name) in NamesOf(b.value)
    ensures b.None? ==> forall band :: Lower(name) !in NamesOf(band)
  {
    var n := Lower(name);
    if n in NamesOf(Lowpass) then Some(Lowpass)
    else if n in NamesOf(Highpass) then Some(Highpass)
    else if n in NamesOf(Bandpass) then Some(Bandpass)
    else if n in NamesOf(Bandstop) then Some(Bandstop)
    else None
  }

  /** No name belongs to two bands, so a name denotes a band exactly when it
      is one of that band's names. */
  lemma BandOfNames(name: string, band: Band)
    ensures BandOf(name) == Some(band) <==> Lower(name) in NamesOf(band)
  {
  }

  /** The full name of a band, the one `btype` documents. */
  function BandName(b: Band): string {
    match b
    case Lowpass => "lowpass"
    case Highpass => "highpass"
    case Bandpass => "bandpass"
    case Bandstop => "bandstop"
  }

  /** Every band is reached by its full name. */
  lemma BandNames(b: Band)
    ensures BandOf(BandName(b)) == Some(b)
  {
    assert Lower(BandName(b)) == BandName(b);
  }

  /** Case does not matter: a name and its lower-case form denote the same
      band. */
  lemma BandOfIgnoresCase(name: string)
    ensures BandOf(Lower(name)) == BandOf(name)
  {
    LowerIdempotent(name);
  }

  /** `1 / (Tc_min * 60)`: the frequency in Hz of a period in minutes. */
  function Cutoff(minutes: real): (hz: real)
    requires minutes > 0.0
    ensures hz > 0.0
  {
    1.0 / (minutes * 60.0)
  }

  /** The conversion is its own inverse: the same formula turns a frequency
      in Hz back into the period in minutes. */
  lemma CutoffPeriod(minutes: real)
    requires minutes > 0.0
    ensures Cutoff(Cutoff(minutes)) == minutes
  {
    var hz := Cutoff(minutes);
    assert hz * (minutes * 60.0) == 1.0;
    assert (hz * 60.0) * minutes == 1.0;
  }

  /** A longer period is a lower frequency. */
  lemma CutoffDecreasing(a: real, b: real)
    requires 0.0 < a && 0.0 < b
    ensures a < b <==> Cutoff(b) < Cutoff(a)
  {
    if a < b {
      ReciprocalDecreasing(a * 60.0, b * 60.0);
    }
    if b < a {
      ReciprocalDecreasing(b * 60.0, a * 60.0);
    }
  }

  /** Of two positive reals the larger has the smaller reciprocal. */
  lemma ReciprocalDecreasing(x: real, y: real)
    requires 0.0 < x < y
    ensures 1.0 / y < 1.0 / x
  {
    var p, q := 1.0 / x, 1.0 / y;
    assert p * x == 1.0 && q * y == 1.0;
    assert q * x < q * y;
    assert q * x < p * x;
  }

  /** `Wn = 1/(Tc_min*60)`, reversed when there are exactly two, so that a
      band given as (short period, long period) becomes (low Hz, high Hz). */
  function CriticalFrequencies(periods: seq<real>): (wn: seq<real>)
    requires forall i :: 0 <= i < |periods| ==> periods[i] > 0.0
    ensures |wn| == |periods|
    ensures forall i :: 0 <= i < |wn| ==> wn[i] > 0.0
    ensures |periods| != 2 ==> forall i :: 0 <= i < |wn| ==> wn[i] == Cutoff(periods[i])
    ensures |periods| == 2 ==> wn == [Cutoff(periods[1]), Cutoff(periods[0])]
  {
    var hz := seq(|periods|, i requires 0 <= i < |periods| => Cutoff(periods[i]));
    if |periods| == 2 then [hz[1], hz[0]] else hz
  }

  /** The conversion loses nothing: applied to `Wn` it gives the periods
      back, the pair swapped back into its given order. */
  lemma {:induction false} PeriodsRoundTrip(periods: seq<real>)
    requires forall i :: 0 <= i < |periods| ==> periods[i] > 0.0
    ensures CriticalFrequencies(CriticalFrequencies(periods)) == periods
  {
    var wn := CriticalFrequencies(periods);
    var back := CriticalFrequencies(wn);
    forall i | 0 <= i < |periods|
      ensures back[i] == periods[i]
    {
      CutoffPeriod(periods[i]);
    }
  }

  /** Two periods give increasing critical frequencies exactly when the
      shorter period comes first. */
  lemma PairOrder(periods: seq<real>)
    requires |periods| == 2 && periods[0] > 0.0 && periods[1] > 0.0
    ensures var wn := CriticalFrequencies(periods);
            wn[0] < wn[1] <==> periods[0] < periods[1]
  {
    CutoffDecreasing(periods[0], periods[1]);
  }

  /** `np.unique(np.diff(UTC))[0]`: the smallest step between consecutive
      times. */
  function SmallestStep(ts: seq<int>): (d: int)
    requires |ts| >= 2
    ensures forall i :: 0 <= i < |ts| - 1 ==> d <= ts[i + 1] - ts[i]
    ensures exists i :: 0 <= i < |ts| - 1 && d == ts[i + 1] - ts[i]
  {
    if |ts| == 2 then ts[1] - ts[0]
    else
      var d := SmallestStep(ts[1..]);
      assert forall i :: 1 <= i < |ts| ==> ts[i] == ts[1..][i - 1];
      if ts[1] - ts[0] <= d then ts[1] - ts[0] else d
  }

  /** `fs = 1/(smallest step * 1e-9)`: samples per second of a column of
      nanosecond times. Fewer than two times leave no step; a zero step
      divides by zero; a negative one gives a negative rate that the filter
      design rejects. */
  function SamplingRate(ts: seq<int>): (r: Result<real>)
    ensures r == Err(TooFewForRate) <==> |ts| < 2
    ensures r == Err(ZeroSpacing) <==> |ts| >= 2 && SmallestStep(ts) == 0
    ensures r.Ok? ==> |ts| >= 2 && SmallestStep(ts) != 0 && r.value == 1000000000.0 / SmallestStep(ts) as real
    ensures r.Ok? ==> (r.value > 0.0 <==> forall i :: 0 <= i < |ts| - 1 ==> ts[i] < ts[i + 1])
  {
    if |ts| < 2 then Err(TooFewForRate)
    else
      var d := SmallestStep(ts);
      if d == 0 then Err(ZeroSpacing)
      else
        RateOfStep(d);
        Ok(1.0 / ((d as real) * 0.000000001))
  }

  /** Over a step of `d` nanoseconds, `1/(d * 1e-9)` samples a second. */
  lemma RateOfStep(d: int)
    requires d != 0
    ensures 1.0 / ((d as real) * 0.000000001) == 1000000000.0 / d as real
    ensures (1.0 / ((d as real) * 0.000000001)) * (d as real) == 1000000000.0
    ensures 1.0 / ((d as real) * 0.000000001) > 0.0 <==> d > 0
  {
    var x := d as real;
    assert x * 0.000000001 == x / 1000000000.0;
    var y := 1000000000.0 / x;
    assert y * x == 1000000000.0;
    assert y * (x * 0.000000001) == 1.0;
  }

  /** Times one `rate` apart have a sampling rate of one over `rate`
      seconds. */
  lemma EvenRate(ts: seq<int>, rate: int)
    requires |ts| >= 2 && rate > 0
    requires forall i :: 0 <= i < |ts| - 1 ==> ts[i + 1] == ts[i] + rate
    ensures SamplingRate(ts) == Ok(1000000000.0 / rate as real)
  {
    assert SmallestStep(ts) == rate;
    RateOfStep(rate);
  }

  /** Whether the band takes the number of critical frequencies given: one
      for low- and high-pass, at least two (the first two are used) for the
      band filters. */
  predicate CountFits(band: Band, n: nat) {
    if band == Lowpass || band == Highpass then n == 1 else n >= 2
  }

  /** `Filter.__init__`: the critical frequencies, then `signal.butter`'s
      checks in the order it makes them. */
  function MakeFilter(order: int, periods: seq<real>, btype: string, fs: real): (r: Result<FilterSpec>)
    ensures fs <= 0.0 ==> r == Err(NonPositiveRate)
    ensures fs > 0.0 && (exists i :: 0 <= i < |periods| && periods[i] <= 0.0) ==> r == Err(NonPositivePeriod)
    ensures r.Ok? ==>
              && fs > 0.0 && order >= 0
              && (forall i :: 0 <= i < |periods| ==> periods[i] > 0.0)
              && BandOf(btype).Some?
              && r.value == FilterSpec(order, CriticalFrequencies(periods), BandOf(btype).value, fs)
    ensures r.Ok? ==> forall i :: 0 <= i < |r.value.wn| ==> 0.0 < r.value.wn[i] < fs / 2.0
    ensures r.Ok? ==> CountFits(r.value.band, |periods|)
    ensures r.Ok? && |periods| > 1 ==> r.value.wn[0] < r.value.wn[1]
    ensures r.Err? && r.error.UnknownBandType? ==> BandOf(btype).None? && r.error.name == btype
    ensures r.Err? && r.error == NegativeOrder ==> order < 0
  {
    if fs <= 0.0 then Err(NonPositiveRate)
    else if exists i :: 0 <= i < |periods| && periods[i] <= 0.0 then Err(NonPositivePeriod)
    else
      var wn := CriticalFrequencies(periods);
      if |wn| > 1 && !(wn[0] < wn[1]) then Err(CutoffsNotIncreasing)
      else match BandOf(btype)
        case None => Err(UnknownBandType(btype))
        case Some(band) =>
          if order < 0 then Err(NegativeOrder)
          else if exists i :: 0 <= i < |wn| && wn[i] >= fs / 2.0 then Err(CutoffAboveNyquist)
          else if !CountFits(band, |wn|) then Err(WrongCutoffCount)
          else Ok(FilterSpec(order, wn, band, fs))
  }

  /** A low- or high-pass filter is designed exactly when the rate and the
      order are valid, the one period is positive and its frequency lies
      below the Nyquist frequency. */
  lemma SingleCutoff(order: int, t: real, btype: string, fs: real)
    requires BandOf(btype) == Some(Lowpass) || BandOf(btype) == Some(Highpass)
    ensures MakeFilter(order, [t], btype, fs).Ok? <==>
              fs > 0.0 && order >= 0 && t > 0.0 && Cutoff(t) < fs / 2.0
  {
  }

  /** A band filter from two periods is designed exactly when the rate and
      the order are valid and the periods are positive, shorter first, with
      the shorter one's frequency below the Nyquist frequency. */
  lemma BandCutoffs(order: int, t0: real, t1: real, btype: string, fs: real)
    requires BandOf(btype) == Some(Bandpass) || BandOf(btype) == Some(Bandstop)
    ensures MakeFilter(order, [t0, t1], btype, fs).Ok? <==>
              fs > 0.0 && order >= 0 && 0.0 < t0 < t1 && Cutoff(t0) < fs / 2.0
  {
    if fs > 0.0 && 0.0 < t0 && 0.0 < t1 {
      PairOrder([t0, t1]);
      CutoffDecreasing(t0, t1);
    }
  }

  /** `3 * max(len(a), len(b))`: the padding `filtfilt` adds at each end. The
      transfer function of an order-N design has N + 1 coefficients, and
      2N + 1 for the band filters. */
  function PadLength(spec: FilterSpec): (n: nat)
    ensures n >= 3 && n % 3 == 0
    ensures spec.band == Lowpass || spec.band == Highpass ==> n == 3 * (spec.order + 1)
    ensures spec.band == Bandpass || spec.band == Bandstop ==> n == 3 * (2 * spec.order + 1)
  {
    var taps := if spec.band == Lowpass || spec.band == Highpass then spec.order + 1 else 2 * spec.order + 1;
    3 * taps
  }

  /** `filtfilt` returns a signal as long as its input. */
  ghost predicate LengthPreserving(apply: (FilterSpec, seq<real>) -> seq<real>) {
    forall spec, v :: |apply(spec, v)| == |v|
  }

  /** Filtering a column `n` times over. */
  function Repeat(apply: (FilterSpec, seq<real>) -> seq<real>, spec: FilterSpec, v: seq<real>, n: nat): (w: seq<real>)
    requires LengthPreserving(apply)
    ensures |w| == |v|
    ensures n == 0 ==> w == v
    decreases n
  {
    if n == 0 then v else Repeat(apply, spec, apply(spec, v), n - 1)
  }

  function Count(params: seq<string>, c: string): (n: nat)
    ensures n == 0 <==> c !in params
  {
    if |params| == 0 then 0 else (if params[0] == c then 1 else 0) + Count(params[1..], c)
  }

  /** The loop `for param in params: df[param] = filt.filter_data(df[param])`.
      Each listed column is replaced by its filtered values, a column listed
      twice is filtered twice, and every other column is left alone. The
      loop stops at the first column that is the time column, is missing, or
      is no longer than the padding. */
  function FilterColumns(f: Frame, spec: FilterSpec, params: seq<string>,
                         apply: (FilterSpec, seq<real>) -> seq<real>): (r: Result<Frame>)
    requires WellFormed(f) && LengthPreserving(apply)
    ensures r.Err? <==> (exists c :: c in params && c !in f.names) || (|params| > 0 && |f.rows| <= PadLength(spec))
    ensures r.Err? && |params| > 0 && params[0] in f.names && |f.rows| <= PadLength(spec) ==>
              r.error == TooShortToFilter(params[0])
    ensures r.Err? && |params| > 0 && params[0] == TimeColumn ==> r.error == NotNumeric(TimeColumn)
    ensures r.Ok? ==> WellFormed(r.value) && r.value.names == f.names
    ensures r.Ok? ==> |r.value.rows| == |f.rows| && Times(r.value.rows) == Times(f.rows)
    ensures r.Ok? ==> forall c :: c in f.names && c !in params ==> Named(r.value, c) == Named(f, c)
    ensures r.Ok? ==> forall c :: c in params ==> Named(r.value, c) == Repeat(apply, spec, Named(f, c), Count(params, c))
    decreases |params|
  {
    if |params| == 0 then Ok(f)
    else
      var p := params[0];
      if p == TimeColumn then Err(NotNumeric(p))
      else if p !in f.names then Err(MissingColumn(p))
      else if |f.rows| <= PadLength(spec) then Err(TooShortToFilter(p))
      else
        var g := Assign(f, p, apply(spec, Named(f, p)));
        var r := FilterColumns(g, spec, params[1..], apply);
        FilterColumnsStep(f, spec, params, apply, g, r);
        r
  }

  /** One turn of the column loop: what the rest of the loop promises about
      the frame with the first column filtered is what the whole loop
      promises about the frame it started from. */
  lemma FilterColumnsStep(f: Frame, spec: FilterSpec, params: seq<string>,
                          apply: (FilterSpec, seq<real>) -> seq<real>, g: Frame, r: Result<Frame>)
    requires WellFormed(f) && LengthPreserving(apply) && |params| > 0
    requires params[0] != TimeColumn && params[0] in f.names && |f.rows| > PadLength(spec)
    requires g == Assign(f, params[0], apply(spec, Named(f, params[0])))
    requires r.Err? <==> (exists c :: c in params[1..] && c !in g.names) ||
                         (|params[1..]| > 0 && |g.rows| <= PadLength(spec))
    requires r.Ok? ==> WellFormed(r.value) && r.value.names == g.names
    requires r.Ok? ==> |r.value.rows| == |g.rows| && Times(r.value.rows) == Times(g.rows)
    requires r.Ok? ==> forall c :: c in g.names && c !in params[1..] ==> Named(r.value, c) == Named(g, c)
    requires r.Ok? ==> forall c :: c in params[1..] ==>
               Named(r.value, c) == Repeat(apply, spec, Named(g, c), Count(params[1..], c))
    ensures r.Err? <==> (exists c :: c in params && c !in f.names) || (|params| > 0 && |f.rows| <= PadLength(spec))
    ensures r.Ok? ==> WellFormed(r.value) && r.value.names == f.names
    ensures r.Ok? ==> |r.value.rows| == |f.rows| && Times(r.value.rows) == Times(f.rows)
    ensures r.Ok? ==> forall c :: c in f.names && c !in params ==> Named(r.value, c) == Named(f, c)
    ensures r.Ok? ==> forall c :: c in params ==> Named(r.value, c) == Repeat(apply, spec, Named(f, c), Count(params, c))
  {
    var p := params[0];
    assert g.names == f.names;
    assert forall c :: c in params[1..] ==> c in params;
    assert forall c :: c in params && c != p ==> c in params[1..];
    if r.Ok? {
      forall c | c in params
        ensures Named(r.value, c) == Repeat(apply, spec, Named(f, c), Count(params, c))
      {
        StepColumn(f, spec, params, apply, g, r.value, c);
      }
    }
  }

  /** One listed column after a loop turn: the first turn's filtering and the
      rest's repetitions add up to one per listing. */
  lemma StepColumn(f: Frame, spec: FilterSpec, params: seq<string>,
                   apply: (FilterSpec, seq<real>) -> seq<real>, g: Frame, h: Frame, c: string)
    requires WellFormed(f) && LengthPreserving(apply) && |params| > 0 && c in params && c in f.names
    requires params[0] != TimeColumn && params[0] in f.names
    requires g == Assign(f, params[0], apply(spec, Named(f, params[0])))
    requires WellFormed(h) && h.names == g.names
    requires c !in params[1..] ==> Named(h, c) == Named(g, c)
    requires c in params[1..] ==> Named(h, c) == Repeat(apply, spec, Named(g, c), Count(params[1..], c))
    ensures Named(h, c) == Repeat(apply, spec, Named(f, c), Count(params, c))
  {
    if c == params[0] {
      StepFirstColumn(f, spec, params, apply, g, h);
    } else {
      StepOtherColumn(f, spec, params, apply, g, h, c);
    }
  }

  /** The column the turn filtered: once now, then as often as the rest lists it. */
  lemma StepFirstColumn(f: Frame, spec: FilterSpec, params: seq<string>,
                        apply: (FilterSpec, seq<real>) -> seq<real>, g: Frame, h: Frame)
    requires WellFormed(f) && LengthPreserving(apply) && |params| > 0
    requires params[0] != TimeColumn && params[0] in f.names
    requires g == Assign(f, params[0], apply(spec, Named(f, params[0])))
    requires WellFormed(h) && h.names == g.names
    requires params[0] !in params[1..] ==> Named(h, params[0]) == Named(g, params[0])
    requires params[0] in params[1..] ==>
               Named(h, params[0]) == Repeat(apply, spec, Named(g, params[0]), Count(params[1..], params[0]))
    ensures Named(h, params[0]) == Repeat(apply, spec, Named(f, params[0]), Count(params, params[0]))
  {
    var p := params[0];
    var x := Named(f, p);
    var m := Count(params[1..], p);
    assert Count(params, p) == m + 1;
    assert Named(g, p) == apply(spec, x);
    assert Repeat(apply, spec, x, m + 1) == Repeat(apply, spec, apply(spec, x), m);
  }

  /** A column the turn did not filter: only the rest's repetitions count. */
  lemma StepOtherColumn(f: Frame, spec: FilterSpec, params: seq<string>,
                        apply: (FilterSpec, seq<real>) -> seq<real>, g: Frame, h: Frame, c: string)
    requires WellFormed(f) && LengthPreserving(apply) && |params| > 0 && c in params && c in f.names
    requires params[0] != TimeColumn && params[0] in f.names && c != params[0]
    requires g == Assign(f, params[0], apply(spec, Named(f, params[0])))
    requires WellFormed(h) && h.names == g.names
    requires c in params[1..] ==> Named(h, c) == Repeat(apply, spec, Named(g, c), Count(params[1..], c))
    ensures Named(h, c) == Repeat(apply, spec, Named(f, c), Count(params, c))
  {
    assert c in params[1..];
    assert Count(params, c) == Count(params[1..], c);
    assert Named(g, c) == Named(f, c);
  }

  /** With every column listed once, each listed column is filtered exactly
      once. */
  lemma FilterOnce(f: Frame, spec: FilterSpec, params: seq<string>,
                   apply: (FilterSpec, seq<real>) -> seq<real>, c: string)
    requires WellFormed(f) && LengthPreserving(apply) && Distinct(params)
    requires FilterColumns(f, spec, params, apply).Ok? && c in params
    ensures Named(FilterColumns(f, spec, params, apply).value, c) == apply(spec, Named(f, c))
  {
    CountDistinct(params, c);
  }

  lemma {:induction false} CountDistinct(params: seq<string>, c: string)
    requires Distinct(params) && c in params
    ensures Count(params, c) == 1
  {
    if params[0] != c {
      assert c in params[1..];
      CountDistinct(params[1..], c);
    } else {
      assert c !in params[1..];
    }
  }
}

=== FILE: frames.dfy ===
/** The pandas frames the pipeline passes between stages: a `UTC` column of
    nanosecond timestamps followed by named real-valued columns, one row per
    sample. A frame is kept row-wise, so that sorting by time moves whole rows. */
module Frames {
  import opened Results

  datatype Row = Row(utc: int, vals: seq<real>)

  /** `names[k]` is the name of `vals[k]` in every row; the `UTC` column is the
      `utc` field and is not among `names`. */
  datatype Frame = Frame(names: seq<string>, rows: seq<Row>)

  const TimeColumn: string := "UTC"

  predicate Distinct<T(==)>(s: seq<T>) {
    forall i, j :: 0 <= i < j < |s| ==> s[i] != s[j]
  }

  predicate WellFormed(f: Frame) {
    && Distinct(f.names)
    && TimeColumn !in f.names
    && forall i :: 0 <= i < |f.rows| ==> |f.rows[i].vals| == |f.names|
  }

  /** The `UTC` column. */
  function Times(rows: seq<Row>): (ts: seq<int>)
    ensures |ts| == |rows|
    ensures forall i :: 0 <= i < |rows| ==> ts[i] == rows[i].utc
  {
    seq(|rows|, i requires 0 <= i < |rows| => rows[i].utc)
  }

  /** The k-th named column. */
  function Column(rows: seq<Row>, k: nat): (col: seq<real>)
    requires forall i :: 0 <= i < |rows| ==> k < |rows[i].vals|
    ensures |col| == |rows|
    ensures forall i :: 0 <= i < |rows| ==> col[i] == rows[i].vals[k]
  {
    seq(|rows|, i requires 0 <= i < |rows| => rows[i].vals[k])
  }

  /** The position of column `c`, if the frame has it. */
  function IndexOf(names: seq<string>, c: string): (r: Option<nat>)
    ensures r.Some? <==> c in names
    ensures r.Some? ==> r.value < |names| && names[r.value] == c
    ensures r.Some? ==> forall j :: 0 <= j < r.value ==> names[j] != c
  {
    if |names| == 0 then None
    else if names[0] == c then Some(0)
    else
      match IndexOf(names[1..], c)
      case None => None
      case Some(k) => Some(k + 1)
  }

  /** In a frame with distinct names the position of a column is its only one. */
  lemma IndexOfDistinct(names: seq<string>, k: nat)
    requires Distinct(names) && k < |names|
    ensures IndexOf(names, names[k]) == Some(k)
  {
  }

  /** The column named `c`. */
  function Named(f: Frame, c: string): (col: seq<real>)
    requires WellFormed(f) && c in f.names
    ensures |col| == |f.rows|
    ensures forall i :: 0 <= i < |f.rows| ==> col[i] == f.rows[i].vals[IndexOf(f.names, c).value]
  {
    Column(f.rows, IndexOf(f.names, c).value)
  }

  /** Replaces the k-th column of every row by the entries of `col`. */
  function SetColumn(f: Frame, k: nat, col: seq<real>): (g: Frame)
    requires WellFormed(f) && k < |f.names| && |col| == |f.rows|
    ensures WellFormed(g) && g.names == f.names && |g.rows| == |f.rows|
    ensures Times(g.rows) == Times(f.rows)
    ensures forall i :: 0 <= i < |g.rows| ==> g.rows[i].vals[k] == col[i]
    ensures forall i, j :: 0 <= i < |g.rows| && 0 <= j < |f.names| && j != k ==>
              g.rows[i].vals[j] == f.rows[i].vals[j]
  {
    Frame(f.names, seq(|f.rows|, i requires 0 <= i < |f.rows| =>
      Row(f.rows[i].utc, f.rows[i].vals[k := col[i]])))
  }

  /** `df[name] = col`: replaces the column if the frame has it, otherwise
      appends it as the last column. */
  function Assign(f: Frame, name: string, col: seq<real>): (g: Frame)
    requires WellFormed(f) && name != TimeColumn && |col| == |f.rows|
    ensures WellFormed(g) && |g.rows| == |f.rows| && Times(g.rows) == Times(f.rows)
    ensures g.names == if name in f.names then f.names else f.names + [name]
    ensures Named(g, name) == col
    ensures forall c :: c in f.names && c != name ==> c in g.names && Named(g, c) == Named(f, c)
  {
    match IndexOf(f.names, name)
    case Some(k) =>
      ReplacedNamed(f, name, col, k);
      SetColumn(f, k, col)
    case None =>
      AppendedNamed(f, name, col);
      AppendColumn(f, name, col)
  }

  /** Appends `col` as a new last column called `name`. */
  function AppendColumn(f: Frame, name: string, col: seq<real>): (g: Frame)
    requires WellFormed(f) && name != TimeColumn && name !in f.names && |col| == |f.rows|
    ensures WellFormed(g) && g.names == f.names + [name] && |g.rows| == |f.rows|
    ensures Times(g.rows) == Times(f.rows)
    ensures forall i :: 0 <= i < |g.rows| ==> g.rows[i].vals == f.rows[i].vals + [col[i]]
  {
    Frame(f.names + [name], seq(|f.rows|, i requires 0 <= i < |f.rows| =>
      Row(f.rows[i].utc, f.rows[i].vals + [col[i]])))
  }

  /** After replacing the column `name`, it reads `col` and every other
      column reads as before. */
  lemma ReplacedNamed(f: Frame, name: string, col: seq<real>, k: nat)
    requires WellFormed(f) && |col| == |f.rows| && IndexOf(f.names, name) == Some(k)
    ensures WellFormed(SetColumn(f, k, col)) && Named(SetColumn(f, k, col), name) == col
    ensures forall c :: c in f.names && c != name ==> Named(SetColumn(f, k, col), c) == Named(f, c)
  {
    var g := SetColumn(f, k, col);
    assert forall c :: c in f.names ==> IndexOf(g.names, c) == IndexOf(f.names, c);
  }

  /** After appending the column `name`, it reads `col` and every other
      column reads as before. */
  lemma AppendedNamed(f: Frame, name: string, col: seq<real>)
    requires WellFormed(f) && name != TimeColumn && name !in f.names && |col| == |f.rows|
    ensures WellFormed(AppendColumn(f, name, col)) && Named(AppendColumn(f, name, col), name) == col
    ensures forall c :: c in f.names && c != name ==>
              c in AppendColumn(f, name, col).names && Named(AppendColumn(f, name, col), c) == Named(f, c)
  {
    var g := AppendColumn(f, name, col);
    assert IndexOf(g.names, name) == Some(|f.names|) by {
      IndexOfDistinct(g.names, |f.names|);
    }
    forall c | c in f.names && c != name
      ensures IndexOf(g.names, c) == IndexOf(f.names, c)
    {
      var k :| 0 <= k < |f.names| && f.names[k] == c;
      IndexOfDistinct(f.names, k);
      IndexOfDistinct(g.names, k);
    }
  }
}

=== FILE: grapedata.dfy ===
/** `GrapeData`: the data sets of one node and frequency, kept under names
    (`raw`, `resampled`, `filtered`), and the constructor that loads, resamples,
    adds the received power and filters them. */
module GrapeData {
  import opened Results
  import opened Seqs
  import opened Frames
  import opened DataInventory
  import opened GrapeNodes
  import opened Loading
  import opened Resample
  import opened Filtering

  /** `self.data`: each data set by name (its display label is not modelled). */
  type Stages = map<string, Frame>

  const RawStage: string := "raw"
  const ResampledStage: string := "resampled"
  const FilteredStage: string := "filtered"

  const PowerColumn: string := "Power_dB"

  /** The columns the constructor filters. */
  const DefaultParams: seq<string> := ["Freq", "Vpk", "Power_dB"]

  lemma StageNamesDistinct()
    ensures RawStage != ResampledStage && RawStage != FilteredStage && ResampledStage != FilteredStage
  {
    assert RawStage[1] != ResampledStage[1] && |RawStage| != |FilteredStage|;
    assert ResampledStage[0] != FilteredStage[0];
  }

  /** Adding the filtered set to the raw and resampled sets gives all three,
      and the filtered set is neither of the others. */
  lemma StagesAfterFilter(keys: set<string>)
    requires keys == {RawStage, ResampledStage}
    ensures keys + {FilteredStage} == {RawStage, ResampledStage, FilteredStage}
    ensures FilteredStage != RawStage && FilteredStage != ResampledStage
  {
    StageNamesDistinct();
  }

  predicate StagesWellFormed(data: Stages) {
    forall name :: name in data ==> WellFormed(data[name])
  }

  /** `resample_data`: the input set resampled and stored under the output
      name; every other set is kept. */
  function ResampleData(data: Stages, rate: int, input: string, output: string): (r: Result<Stages>)
    requires StagesWellFormed(data)
    ensures input !in data ==> r == Err(MissingStage(input))
    ensures input in data ==> (r.Ok? <==> ResampleFrame(data[input], rate).Ok?)
    ensures r.Ok? ==> StagesWellFormed(r.value) && r.value.Keys == data.Keys + {output}
    ensures r.Ok? ==> forall name :: name in data && name != output ==> r.value[name] == data[name]
    ensures r.Ok? ==> input in data && r.value[output] == ResampleFrame(data[input], rate).value
  {
    if input !in data then Err(MissingStage(input))
    else
      var out :- ResampleFrame(data[input], rate);
      Ok(data[output := out])
  }

  /** `20 * log10(Vpk)`; `log10` stands for numpy's. */
  function Decibels(vpk: seq<real>, log10: real -> real): (db: seq<real>)
    ensures |db| == |vpk|
    ensures forall i :: 0 <= i < |vpk| ==> db[i] == 20.0 * log10(vpk[i])
  {
    seq(|vpk|, i requires 0 <= i < |vpk| => 20.0 * log10(vpk[i]))
  }

  /** `df['Power_dB'] = 20*np.log10(df['Vpk'])`: the column is added (or
      replaced) and no other column changes. */
  function AddPower(f: Frame, log10: real -> real): (r: Result<Frame>)
    requires WellFormed(f)
    ensures r.Err? <==> "Vpk" !in f.names
    ensures r.Err? ==> r.error == MissingColumn("Vpk")
    ensures r.Ok? ==> WellFormed(r.value) && Times(r.value.rows) == Times(f.rows)
    ensures r.Ok? ==> r.value.names == if PowerColumn in f.names then f.names else f.names + [PowerColumn]
    ensures r.Ok? ==> forall i :: 0 <= i < |f.rows| ==>
              Named(r.value, PowerColumn)[i] == 20.0 * log10(Named(f, "Vpk")[i])
    ensures r.Ok? ==> forall c :: c in f.names && c != PowerColumn ==> Named(r.value, c) == Named(f, c)
  {
    if "Vpk" !in f.names then Err(MissingColumn("Vpk"))
    else Ok(Assign(f, PowerColumn, Decibels(Named(f, "Vpk"), log10)))
  }

  /** What `np.log10` is on positive reals: increasing, turning products into
      sums, and one at ten. */
  ghost predicate IsLog10(log10: real -> real) {
    && (forall x, y :: 0.0 < x < y ==> log10(x) < log10(y))
    && (forall x, y :: 0.0 < x && 0.0 < y ==> log10(x * y) == log10(x) + log10(y))
    && log10(10.0) == 1.0
  }

  /** The power column orders rows as their positive amplitudes do. */
  lemma PowerOrder(f: Frame, log10: real -> real, g: Frame, i: nat, j: nat)
    requires WellFormed(f) && IsLog10(log10) && AddPower(f, log10) == Ok(g)
    requires i < |f.rows| && j < |f.rows| && 0.0 < Named(f, "Vpk")[i] && 0.0 < Named(f, "Vpk")[j]
    ensures Named(f, "Vpk")[i] < Named(f, "Vpk")[j] <==> Named(g, PowerColumn)[i] < Named(g, PowerColumn)[j]
  {
    var a, b := Named(f, "Vpk")[i], Named(f, "Vpk")[j];
    assert a < b ==> log10(a) < log10(b);
    assert b < a ==> log10(b) < log10(a);
  }

  /** Ten times the amplitude is twenty decibels more power. */
  lemma PowerDecade(f: Frame, log10: real -> real, g: Frame, i: nat, j: nat)
    requires WellFormed(f) && IsLog10(log10) && AddPower(f, log10) == Ok(g)
    requires i < |f.rows| && j < |f.rows| && 0.0 < Named(f, "Vpk")[i]
    requires Named(f, "Vpk")[j] == 10.0 * Named(f, "Vpk")[i]
    ensures Named(g, PowerColumn)[j] == Named(g, PowerColumn)[i] + 20.0
  {
    var a := Named(f, "Vpk")[i];
    assert log10(10.0 * a) == log10(10.0) + log10(a);
  }

  /** One data set filtered: the sampling rate from its `UTC` column, the
      filter design, then the column loop. */
  function FilterFrame(f: Frame, order: int, periods: seq<real>, btype: string, params: seq<string>,
                       apply: (FilterSpec, seq<real>) -> seq<real>): (r: Result<Frame>)
    requires WellFormed(f) && LengthPreserving(apply)
    ensures SamplingRate(Times(f.rows)).Err? ==> r == Err(SamplingRate(Times(f.rows)).error)
    ensures r.Ok? ==>
              var fs := SamplingRate(Times(f.rows));
              && fs.Ok? && MakeFilter(order, periods, btype, fs.value).Ok?
              && r == FilterColumns(f, MakeFilter(order, periods, btype, fs.value).value, params, apply)
    ensures r.Ok? ==> WellFormed(r.value) && r.value.names == f.names && Times(r.value.rows) == Times(f.rows)
  {
    var fs :- SamplingRate(Times(f.rows));
    var spec :- MakeFilter(order, periods, btype, fs);
    FilterColumns(f, spec, params, apply)
  }

  /** `filter_data` as written: whatever `data_set_in` names, the set read is
      `resampled`. */
  function FilterDataAsWritten(data: Stages, order: int, periods: seq<real>, btype: string,
                               input: string, output: string, params: seq<string>,
                               apply: (FilterSpec, seq<real>) -> seq<real>): (r: Result<Stages>)
    requires StagesWellFormed(data) && LengthPreserving(apply)
    ensures ResampledStage !in data ==> r == Err(MissingStage(ResampledStage))
    ensures ResampledStage in data ==>
              (r.Ok? <==> FilterFrame(data[ResampledStage], order, periods, btype, params, apply).Ok?)
    ensures r.Ok? ==> StagesWellFormed(r.value) && r.value.Keys == data.Keys + {output}
    ensures r.Ok? ==> forall name :: name in data && name != output ==> r.value[name] == data[name]
    ensures r.Ok? ==> r.value[output] == FilterFrame(data[ResampledStage], order, periods, btype, params, apply).value
  {
    if ResampledStage !in data then Err(MissingStage(ResampledStage))
    else
      var g :- FilterFrame(data[ResampledStage], order, periods, btype, params, apply);
      Ok(data[output := g])
  }

  /** The input name is dropped: asking to filter `raw` filters `resampled`
      instead, so the output has the resampled set's times, not the raw
      set's. */
  lemma FilterIgnoresInput(data: Stages, order: int, periods: seq<real>, btype: string, output: string,
                           params: seq<string>, apply: (FilterSpec, seq<real>) -> seq<real>)
    requires StagesWellFormed(data) && LengthPreserving(apply)
    requires RawStage in data && ResampledStage in data
    requires Times(data[RawStage].rows) != Times(data[ResampledStage].rows)
    requires FilterDataAsWritten(data, order, periods, btype, RawStage, output, params, apply).Ok?
    ensures var out := FilterDataAsWritten(data, order, periods, btype, RawStage, output, params, apply).value;
            Times(out[output].rows) != Times(data[RawStage].rows)
  {
  }

  /** `filter_data` reading the set `data_set_in` names. */
  function FilterData(data: Stages, order: int, periods: seq<real>, btype: string,
                      input: string, output: string, params: seq<string>,
                      apply: (FilterSpec, seq<real>) -> seq<real>): (r: Result<Stages>)
    requires StagesWellFormed(data) && LengthPreserving(apply)
    ensures input !in data ==> r == Err(MissingStage(input))
    ensures input in data ==> (r.Ok? <==> FilterFrame(data[input], order, periods, btype, params, apply).Ok?)
    ensures r.Ok? ==> StagesWellFormed(r.value) && r.value.Keys == data.Keys + {output}
    ensures r.Ok? ==> forall name :: name in data && name != output ==> r.value[name] == data[name]
    ensures r.Ok? ==> r.value[output] == FilterFrame(data[input], order, periods, btype, params, apply).value
    ensures r.Ok? ==> r.value[output].names == data[input].names &&
                      Times(r.value[output].rows) == Times(data[input].rows)
  {
    if input !in data then Err(MissingStage(input))
    else
      var g :- FilterFrame(data[input], order, periods, btype, params, apply);
      Ok(data[output := g])
  }

  /** The corrected `filter_data` agrees with the code as written whenever
      the input is the default, `resampled`. */
  lemma FilterDataDefault(data: Stages, order: int, periods: seq<real>, btype: string, output: string,
                          params: seq<string>, apply: (FilterSpec, seq<real>) -> seq<real>, input: string)
    requires StagesWellFormed(data) && LengthPreserving(apply)
    ensures FilterData(data, order, periods, btype, ResampledStage, output, params, apply)
            == FilterDataAsWritten(data, order, periods, btype, input, output, params, apply)
  {
  }

  /** The constructor's arguments. `rate` is `resample_rate` in nanoseconds,
      `periods` is `Tc_min` (one entry for a scalar). */
  datatype Options = Options(
    node: int, freq: int, sTime: Option<int>, eTime: Option<int>,
    rate: int, order: int, periods: seq<real>, btype: string,
    lat: Option<real>, lon: Option<real>, callSign: Option<string>)

  /** The first two steps after loading: `resample_data(resample_rate,
      'raw', 'resampled')` on the set holding only `raw`. */
  function ResampleRaw(raw: Frame, rate: int): (r: Result<Stages>)
    requires WellFormed(raw)
    ensures ResampleFrame(raw, rate).Err? ==> r == Err(ResampleFrame(raw, rate).error)
    ensures r.Ok? ==> r.value.Keys == {RawStage, ResampledStage} && StagesWellFormed(r.value)
    ensures r.Ok? ==> r.value[RawStage] == raw && ResampleFrame(raw, rate) == Ok(r.value[ResampledStage])
  {
    ResampleData(map[RawStage := raw], rate, RawStage, ResampledStage)
  }

  /** The power column added to the resampled set in place. */
  function PowerStage(data: Stages, log10: real -> real): (r: Result<Stages>)
    requires StagesWellFormed(data) && ResampledStage in data
    ensures r.Ok? <==> "Vpk" in data[ResampledStage].names
    ensures r.Ok? ==> r.value.Keys == data.Keys && StagesWellFormed(r.value)
    ensures r.Ok? ==> forall name :: name in data && name != ResampledStage ==> r.value[name] == data[name]
    ensures r.Ok? ==> AddPower(data[ResampledStage], log10) == Ok(r.value[ResampledStage])
  {
    var withPower :- AddPower(data[ResampledStage], log10);
    Ok(data[ResampledStage := withPower])
  }

  /** `GrapeData.__init__` after loading: resample the raw set, add the
      power column to the resampled set, and filter the default columns of
      the resampled set into `filtered`. `log10` stands for numpy's, `apply`
      for `filtfilt` with the designed filter. */
  function Process(raw: Frame, opts: Options, log10: real -> real,
                   apply: (FilterSpec, seq<real>) -> seq<real>): (r: Result<Stages>)
    requires WellFormed(raw) && LengthPreserving(apply)
    ensures r.Ok? ==> r.value.Keys == {RawStage, ResampledStage, FilteredStage}
    ensures r.Ok? ==> StagesWellFormed(r.value) && r.value[RawStage] == raw
    ensures ResampleFrame(raw, opts.rate).Err? ==> r == Err(ResampleFrame(raw, opts.rate).error)
  {
    var resampled :- ResampleRaw(raw, opts.rate);
    var data :- PowerStage(resampled, log10);
    StagesAfterFilter(data.Keys);
    FilterData(data, opts.order, opts.periods, opts.btype, ResampledStage, FilteredStage, DefaultParams, apply)
  }

  /** `GrapeData.__init__`: load the raw set, then process it; `contents`
      stands for reading a data file. */
  function Build(records: seq<Record>, nodes: Option<seq<NodeRow>>, contents: string -> seq<Sample>,
                 opts: Options, log10: real -> real, apply: (FilterSpec, seq<real>) -> seq<real>)
    : (r: Result<(Stages, Meta)>)
    requires LengthPreserving(apply)
    ensures var loaded := LoadRaw(records, contents, opts.freq, opts.node, opts.sTime, opts.eTime,
                                  opts.callSign, opts.lat, opts.lon, nodes);
            && (loaded.Err? ==> r == Err(loaded.error))
            && (loaded.Ok? ==> (r.Ok? <==> Process(loaded.value.0, opts, log10, apply).Ok?))
            && (r.Ok? ==> loaded.Ok? && r.value.1 == loaded.value.1 &&
                          r.value.0 == Process(loaded.value.0, opts, log10, apply).value)
    ensures r.Ok? ==> r.value.0.Keys == {RawStage, ResampledStage, FilteredStage}
  {
    var (raw, meta) :- LoadRaw(records, contents, opts.freq, opts.node, opts.sTime, opts.eTime,
                               opts.callSign, opts.lat, opts.lon, nodes);
    var data :- Process(raw, opts, log10, apply);
    Ok((data, meta))
  }

  /** A resampled frame of two or more rows comes from a positive rate, and
      its sampling rate is one over that rate, in samples per second. */
  lemma ResampledRate(f: Frame, rate: int, out: Frame)
    requires WellFormed(f) && ResampleFrame(f, rate) == Ok(out) && |out.rows| >= 2
    ensures rate > 0
    ensures SamplingRate(Times(out.rows)) == Ok(1000000000.0 / rate as real)
  {
    var grid := Times(out.rows);
    assert grid == GridOf(f.rows, rate);
    GridSteps(WholeSecond(MinTime(f.rows)), WholeSecond(MaxTime(f.rows)), rate);
    EvenRate(grid, rate);
  }

  /** The sets `Process` stores, step by step. */
  lemma ProcessSteps(raw: Frame, opts: Options, log10: real -> real,
                     apply: (FilterSpec, seq<real>) -> seq<real>, data: Stages)
    requires WellFormed(raw) && LengthPreserving(apply)
    requires Process(raw, opts, log10, apply) == Ok(data)
    ensures ResampleFrame(raw, opts.rate).Ok?
    ensures AddPower(ResampleFrame(raw, opts.rate).value, log10) == Ok(data[ResampledStage])
    ensures WellFormed(data[ResampledStage])
    ensures FilterFrame(data[ResampledStage], opts.order, opts.periods, opts.btype, DefaultParams, apply)
            == Ok(data[FilteredStage])
  {
    StageNamesDistinct();
    var resampledSet := ResampleRaw(raw, opts.rate).value;
    var withPower := PowerStage(resampledSet, log10).value;
    assert data == FilterData(withPower, opts.order, opts.periods, opts.btype, ResampledStage, FilteredStage,
                              DefaultParams, apply).value;
  }

  /** What the constructor leaves behind: a positive rate; the resampled set
      holds the resampled raw columns and the power column; the filtered set
      has the same times, and each of its columns is the matching resampled
      column passed once through the filter designed for the resampled
      sampling rate. */
  lemma ProcessResult(raw: Frame, opts: Options, log10: real -> real,
                      apply: (FilterSpec, seq<real>) -> seq<real>, data: Stages)
    requires WellFormed(raw) && raw.names == RawColumns && LengthPreserving(apply)
    requires Process(raw, opts, log10, apply) == Ok(data)
    ensures opts.rate > 0 && |raw.rows| >= 2 && ResampleFrame(raw, opts.rate).Ok?
    ensures StagesResult(raw, opts, log10, apply, data[ResampledStage], data[FilteredStage])
  {
    ProcessSteps(raw, opts, log10, apply, data);
    StepsResult(raw, opts, log10, apply, data[ResampledStage], data[FilteredStage]);
  }

  /** The resampled and filtered sets the constructor promises. */
  ghost predicate StagesResult(raw: Frame, opts: Options, log10: real -> real,
                               apply: (FilterSpec, seq<real>) -> seq<real>, resampled: Frame, filtered: Frame)
    requires WellFormed(raw) && raw.names == RawColumns
    requires WellFormed(resampled) && WellFormed(filtered)
  {
    && PowerResult(raw, opts, log10, resampled)
    && FilterResult(opts, apply, resampled, filtered)
  }

  /** The resampled set: the raw columns resampled at a positive rate, and
      the power column computed from the resampled `Vpk`. */
  ghost predicate PowerResult(raw: Frame, opts: Options, log10: real -> real, resampled: Frame)
    requires WellFormed(raw) && raw.names == RawColumns && WellFormed(resampled)
  {
    && opts.rate > 0 && |raw.rows| > 0
    && ResampleFrame(raw, opts.rate).Ok?
    && resampled.names == DefaultParams
    && Times(resampled.rows) == GridOf(raw.rows, opts.rate)
    && Named(resampled, "Freq") == Named(ResampleFrame(raw, opts.rate).value, "Freq")
    && Named(resampled, "Vpk") == Named(ResampleFrame(raw, opts.rate).value, "Vpk")
    && (forall i :: 0 <= i < |resampled.rows| ==>
          Named(resampled, PowerColumn)[i] == 20.0 * log10(Named(resampled, "Vpk")[i]))
  }

  /** The filtered set: the times of the resampled set, and each default
      column passed once through the filter designed at the given rate. */
  ghost predicate FilterResult(opts: Options, apply: (FilterSpec, seq<real>) -> seq<real>,
                               resampled: Frame, filtered: Frame)
    requires WellFormed(resampled) && WellFormed(filtered) && opts.rate > 0
    requires resampled.names == DefaultParams
  {
    var spec := MakeFilter(opts.order, opts.periods, opts.btype, 1000000000.0 / opts.rate as real);
    && spec.Ok?
    && filtered.names == DefaultParams
    && Times(filtered.rows) == Times(resampled.rows)
    && forall c :: c in DefaultParams ==> Named(filtered, c) == apply(spec.value, Named(resampled, c))
  }

  lemma StepsResult(raw: Frame, opts: Options, log10: real -> real,
                    apply: (FilterSpec, seq<real>) -> seq<real>, pw: Frame, filtered: Frame)
    requires WellFormed(raw) && raw.names == RawColumns && LengthPreserving(apply)
    requires ResampleFrame(raw, opts.rate).Ok?
    requires AddPower(ResampleFrame(raw, opts.rate).value, log10) == Ok(pw)
    requires WellFormed(pw)
    requires FilterFrame(pw, opts.order, opts.periods, opts.btype, DefaultParams, apply) == Ok(filtered)
    ensures WellFormed(filtered) && opts.rate > 0 && |raw.rows| >= 2
    ensures StagesResult(raw, opts, log10, apply, pw, filtered)
  {
    FilterStep(pw, opts, apply, filtered);
    StepsPower(raw, opts, log10, ResampleFrame(raw, opts.rate).value, pw);
    StepsFilter(pw, opts, apply, filtered);
  }

  /** Resampling and adding power, from a resampled set of two or more rows. */
  lemma StepsPower(raw: Frame, opts: Options, log10: real -> real, out: Frame, pw: Frame)
    requires WellFormed(raw) && raw.names == RawColumns && ResampleFrame(raw, opts.rate) == Ok(out)
    requires AddPower(out, log10) == Ok(pw) && WellFormed(pw) && |pw.rows| >= 2
    ensures opts.rate > 0 && |raw.rows| >= 2 && pw.names == DefaultParams
    ensures SamplingRate(Times(pw.rows)) == Ok(1000000000.0 / opts.rate as real)
    ensures PowerResult(raw, opts, log10, pw)
  {
    PowerColumns(out, log10, pw);
    ResampledRate(raw, opts.rate, out);
  }

  /** Filtering a resampled set whose sampling rate is one over the rate. */
  lemma StepsFilter(pw: Frame, opts: Options, apply: (FilterSpec, seq<real>) -> seq<real>, filtered: Frame)
    requires WellFormed(pw) && LengthPreserving(apply) && pw.names == DefaultParams && opts.rate > 0
    requires SamplingRate(Times(pw.rows)) == Ok(1000000000.0 / opts.rate as real)
    requires FilterFrame(pw, opts.order, opts.periods, opts.btype, DefaultParams, apply) == Ok(filtered)
    ensures WellFormed(filtered) && FilterResult(opts, apply, pw, filtered)
  {
    FilterStep(pw, opts, apply, filtered);
    FilterDesign(pw, opts, apply, filtered);
  }

  /** The power column of a resampled raw frame. */
  lemma PowerColumns(out: Frame, log10: real -> real, pw: Frame)
    requires WellFormed(out) && out.names == RawColumns && AddPower(out, log10) == Ok(pw)
    ensures pw.names == DefaultParams && Times(pw.rows) == Times(out.rows)
    ensures Named(pw, "Freq") == Named(out, "Freq") && Named(pw, "Vpk") == Named(out, "Vpk")
    ensures forall i :: 0 <= i < |pw.rows| ==> Named(pw, PowerColumn)[i] == 20.0 * log10(Named(pw, "Vpk")[i])
  {
    assert PowerColumn !in out.names;
  }

  /** Filtering keeps the time column and needs two rows. */
  lemma FilterStep(pw: Frame, opts: Options, apply: (FilterSpec, seq<real>) -> seq<real>, filtered: Frame)
    requires WellFormed(pw) && LengthPreserving(apply)
    requires FilterFrame(pw, opts.order, opts.periods, opts.btype, DefaultParams, apply) == Ok(filtered)
    ensures |pw.rows| >= 2 && filtered.names == pw.names && Times(filtered.rows) == Times(pw.rows)
  {
  }

  /** The filtered columns are the resampled ones passed once through the
      filter of the given sampling rate. */
  lemma FilterDesign(pw: Frame, opts: Options, apply: (FilterSpec, seq<real>) -> seq<real>, filtered: Frame)
    requires WellFormed(pw) && LengthPreserving(apply) && pw.names == DefaultParams && opts.rate > 0
    requires SamplingRate(Times(pw.rows)) == Ok(1000000000.0 / opts.rate as real)
    requires FilterFrame(pw, opts.order, opts.periods, opts.btype, DefaultParams, apply) == Ok(filtered)
    ensures var spec := MakeFilter(opts.order, opts.periods, opts.btype, 1000000000.0 / opts.rate as real);
            && spec.Ok?
            && forall c :: c in DefaultParams ==> Named(filtered, c) == apply(spec.value, Named(pw, c))
  {
    var spec := MakeFilter(opts.order, opts.periods, opts.btype, 1000000000.0 / opts.rate as real).value;
    assert FilterColumns(pw, spec, DefaultParams, apply) == Ok(filtered);
    assert Distinct(DefaultParams);
    forall c | c in DefaultParams
      ensures Named(filtered, c) == apply(spec, Named(pw, c))
    {
      FilterOnce(pw, spec, DefaultParams, apply, c);
    }
  }

  /** The node table's status column, built from an inventory, marks as
      logged exactly the nodes some inventory row belongs to. */
  lemma StatusFromInventory(names: seq<string>, suffix: string, toTime: string -> Option<int>,
                            table: seq<NodeRow>, inv: Inventory, i: nat)
    requires BuildInventory(names, suffix, toTime) == Ok(inv)
    requires i < |table| && |inv.loggedNodes| > 0
    ensures MakeNodes(table, inv.loggedNodes)[i].status == Some(DataLogged) <==>
            exists rec :: rec in inv.records && rec.node == table[i].number
  {
  }
}

=== FILE: interp.dfy ===
/** One-dimensional linear interpolation as `scipy.interpolate.interp1d`
    (kind 'linear', default bounds checking) evaluates it: on the segment
    xs[j] <= x < xs[j+1] the straight line through the two samples, and at
    the last sample time the last value. */
module Interpolation {

  predicate NonDecreasing(xs: seq<real>) {
    forall i, j :: 0 <= i < j < |xs| ==> xs[i] <= xs[j]
  }

  predicate Increasing(xs: seq<real>) {
    forall i, j :: 0 <= i < j < |xs| ==> xs[i] < xs[j]
  }

  /** The segment that holds `x`: the first j with x < xs[j+1]. */
  function Locate(xs: seq<real>, x: real): (j: nat)
    requires |xs| >= 2 && xs[0] <= x < xs[|xs| - 1]
    ensures j + 1 < |xs| && xs[j] <= x < xs[j + 1]
    decreases |xs|
  {
    if x < xs[1] then 0 else 1 + Locate(xs[1..], x)
  }

  /** On sorted times the segment holding `x` is unique. */
  lemma LocateUnique(xs: seq<real>, x: real, j: nat)
    requires |xs| >= 2 && xs[0] <= x < xs[|xs| - 1] && NonDecreasing(xs)
    requires j + 1 < |xs| && xs[j] <= x < xs[j + 1]
    ensures Locate(xs, x) == j
  {
  }

  /** The straight line through (x0, y0) and (x1, y1), at x. */
  function Lerp(x0: real, y0: real, x1: real, y1: real, x: real): real
    requires x0 < x1
  {
    y0 + (y1 - y0) * (x - x0) / (x1 - x0)
  }

  /** The interpolant of the samples (xs[i], ys[i]) at `x`; callers check that
      `x` lies in [xs[0], xs[|xs|-1]], as interp1d raises otherwise. */
  function Interp(xs: seq<real>, ys: seq<real>, x: real): real
    requires |xs| == |ys| >= 2
    requires xs[0] <= x <= xs[|xs| - 1]
  {
    if x == xs[|xs| - 1] then ys[|ys| - 1]
    else
      var j := Locate(xs, x);
      Lerp(xs[j], ys[j], xs[j + 1], ys[j + 1], x)
  }

  lemma LerpAtEnds(x0: real, y0: real, x1: real, y1: real)
    requires x0 < x1
    ensures Lerp(x0, y0, x1, y1, x0) == y0
    ensures Lerp(x0, y0, x1, y1, x1) == y1
  {
    assert (y1 - y0) * (x1 - x0) / (x1 - x0) == y1 - y0;
  }

  /** The interpolant passes through every sample. */
  lemma InterpAtSample(xs: seq<real>, ys: seq<real>, k: nat)
    requires |xs| == |ys| >= 2 && Increasing(xs) && k < |xs|
    ensures Interp(xs, ys, xs[k]) == ys[k]
  {
    if k + 1 < |xs| {
      LocateUnique(xs, xs[k], k);
      LerpAtEnds(xs[k], ys[k], xs[k + 1], ys[k + 1]);
    }
  }

  /** Between two consecutive samples the interpolant is the straight line
      through them, right end included: it is the continuous piecewise-linear
      function through the samples. */
  lemma InterpOnSegment(xs: seq<real>, ys: seq<real>, j: nat, x: real)
    requires |xs| == |ys| >= 2 && Increasing(xs)
    requires j + 1 < |xs| && xs[j] <= x <= xs[j + 1]
    ensures Interp(xs, ys, x) == Lerp(xs[j], ys[j], xs[j + 1], ys[j + 1], x)
  {
    if x < xs[j + 1] {
      LocateUnique(xs, x, j);
    } else {
      InterpAtSample(xs, ys, j + 1);
      LerpAtEnds(xs[j], ys[j], xs[j + 1], ys[j + 1]);
    }
  }

  lemma MulPositive(a: real, p: real, q: real)
    requires a > 0.0
    ensures p < q <==> a * p < a * q
    ensures p <= q <==> a * p <= a * q
  {
    assert a * q - a * p == a * (q - p);
    assert q - p > 0.0 ==> a * (q - p) > 0.0;
    assert q - p < 0.0 ==> a * (q - p) < 0.0;
  }

  lemma MulNonNegative(p: real, q: real)
    requires p >= 0.0 && q >= 0.0
    ensures p * q >= 0.0
  {
  }

  lemma RatioInUnit(n: real, d: real)
    requires 0.0 <= n < d
    ensures 0.0 <= n / d < 1.0
  {
    var t := n / d;
    assert t * d == n;
    MulPositive(d, t, 1.0);
    MulPositive(d, 0.0, t);
  }

  lemma LerpBounded(x0: real, y0: real, x1: real, y1: real, x: real, lo: real, hi: real)
    requires x0 <= x < x1
    requires lo <= y0 <= hi && lo <= y1 <= hi
    ensures lo <= Lerp(x0, y0, x1, y1, x) <= hi
  {
    var t := (x - x0) / (x1 - x0);
    RatioInUnit(x - x0, x1 - x0);
    assert (y1 - y0) * (x - x0) / (x1 - x0) == (y1 - y0) * t;
    var y := Lerp(x0, y0, x1, y1, x);
    assert y == y0 + (y1 - y0) * t;
    assert y - lo == (y0 - lo) * (1.0 - t) + (y1 - lo) * t;
    assert hi - y == (hi - y0) * (1.0 - t) + (hi - y1) * t;
    MulNonNegative(y0 - lo, 1.0 - t);
    MulNonNegative(y1 - lo, t);
    MulNonNegative(hi - y0, 1.0 - t);
    MulNonNegative(hi - y1, t);
  }

  /** Linear interpolation never leaves the range of the sampled values. */
  lemma InterpBounded(xs: seq<real>, ys: seq<real>, x: real, lo: real, hi: real)
    requires |xs| == |ys| >= 2 && xs[0] <= x <= xs[|xs| - 1]
    requires forall i :: 0 <= i < |ys| ==> lo <= ys[i] <= hi
    ensures lo <= Interp(xs, ys, x) <= hi
  {
    if x != xs[|xs| - 1] {
      var j := Locate(xs, x);
      LerpBounded(xs[j], ys[j], xs[j + 1], ys[j + 1], x, lo, hi);
    }
  }

  /** Samples of a straight line are interpolated exactly. */
  lemma InterpLinear(xs: seq<real>, ys: seq<real>, a: real, b: real, x: real)
    requires |xs| == |ys| >= 2 && xs[0] <= x <= xs[|xs| - 1]
    requires forall i :: 0 <= i < |xs| ==> ys[i] == a * xs[i] + b
    ensures Interp(xs, ys, x) == a * x + b
  {
    if x != xs[|xs| - 1] {
      var j := Locate(xs, x);
      var x0, x1 := xs[j], xs[j + 1];
      assert ys[j + 1] - ys[j] == a * (x1 - x0);
      assert a * (x1 - x0) * (x - x0) / (x1 - x0) == a * (x - x0);
    }
  }

  /** The change of unit and origin t -> a*t + b of one time. */
  function Scale(a: real, b: real, x: real): real {
    a * x + b
  }

  /** The time axis after the change of unit and origin t -> a*t + b. */
  function Affine(xs: seq<real>, a: real, b: real): (zs: seq<real>)
    ensures |zs| == |xs|
    ensures forall i {:trigger zs[i]} :: 0 <= i < |xs| ==> zs[i] == Scale(a, b, xs[i])
  {
    seq(|xs|, i requires 0 <= i < |xs| => Scale(a, b, xs[i]))
  }

  /** The segment found depends only on where `x` falls among the sample
      times: two time axes that order the target alike give the same index. */
  lemma {:induction false} LocateOrderOnly(xs: seq<real>, x: real, zs: seq<real>, y: real)
    requires |xs| == |zs| >= 2
    requires xs[0] <= x < xs[|xs| - 1] && zs[0] <= y < zs[|zs| - 1]
    requires forall i :: 0 <= i < |xs| ==> (x < xs[i] <==> y < zs[i])
    ensures Locate(zs, y) == Locate(xs, x)
    decreases |xs|
  {
    assert x < xs[1] <==> y < zs[1];
    if x >= xs[1] {
      LocateOrderOnly(xs[1..], x, zs[1..], y);
    }
  }

  /** An increasing affine change of axis keeps every sample on the same side
      of the target. */
  lemma AffineKeepsOrder(xs: seq<real>, x: real, a: real, b: real)
    requires a > 0.0
    ensures var zs := Affine(xs, a, b);
            forall i {:trigger zs[i]} :: 0 <= i < |xs| ==> (x < xs[i] <==> Scale(a, b, x) < zs[i])
  {
    var zs := Affine(xs, a, b);
    forall i | 0 <= i < |xs|
      ensures x < xs[i] <==> Scale(a, b, x) < zs[i]
    {
      MulPositive(a, x, xs[i]);
    }
  }

  /** Interpolation does not depend on the unit or origin of the time axis:
      interpolating over Julian dates, as the source does, is interpolating
      over any other increasing affine image of the timestamps. */
  lemma InterpAffine(xs: seq<real>, ys: seq<real>, x: real, a: real, b: real)
    requires a > 0.0
    requires |xs| == |ys| >= 2 && xs[0] <= x <= xs[|xs| - 1]
    ensures var zs := Affine(xs, a, b);
            zs[0] <= Scale(a, b, x) <= zs[|zs| - 1] && Interp(zs, ys, Scale(a, b, x)) == Interp(xs, ys, x)
  {
    var last := |xs| - 1;
    var zs := Affine(xs, a, b);
    assert zs[0] == a * xs[0] + b && zs[last] == a * xs[last] + b;
    MulPositive(a, xs[0], x);
    MulPositive(a, x, xs[last]);
    if x != xs[last] {
      InteriorAffine(xs, ys, x, a, b);
    }
  }

  /** The same, for a target strictly before the last sample. */
  lemma InteriorAffine(xs: seq<real>, ys: seq<real>, x: real, a: real, b: real)
    requires a > 0.0
    requires |xs| == |ys| >= 2 && xs[0] <= x < xs[|xs| - 1]
    ensures var zs := Affine(xs, a, b);
            zs[0] <= Scale(a, b, x) < zs[|zs| - 1] && Interp(zs, ys, Scale(a, b, x)) == Interp(xs, ys, x)
  {
    var zs := Affine(xs, a, b);
    var y := Scale(a, b, x);
    MulPositive(a, xs[0], x);
    MulPositive(a, x, xs[|xs| - 1]);
    AffineKeepsOrder(xs, x, a, b);
    LocateOrderOnly(xs, x, zs, y);
    SegmentAffine(xs, ys, Locate(xs, x), x, a, b);
  }

  /** The interpolant on segment j, read on the transformed axis. */
  lemma SegmentAffine(xs: seq<real>, ys: seq<real>, j: nat, x: real, a: real, b: real)
    requires a > 0.0 && |xs| == |ys| && j + 1 < |xs| && xs[j] < xs[j + 1]
    ensures var zs := Affine(xs, a, b);
            Lerp(zs[j], ys[j], zs[j + 1], ys[j + 1], Scale(a, b, x)) == Lerp(xs[j], ys[j], xs[j + 1], ys[j + 1], x)
  {
    var zs := Affine(xs, a, b);
    assert zs[j] == a * xs[j] + b;
    assert zs[j + 1] == a * xs[j + 1] + b;
    LerpAffine(xs[j], ys[j], xs[j + 1], ys[j + 1], x, a, b);
  }

  lemma LerpAffine(x0: real, y0: real, x1: real, y1: real, x: real, a: real, b: real)
    requires a > 0.0 && x0 < x1
    ensures a * x0 + b < a * x1 + b
    ensures Lerp(a * x0 + b, y0, a * x1 + b, y1, a * x + b) == Lerp(x0, y0, x1, y1, x)
  {
    MulPositive(a, x0, x1);
    var n, d := x - x0, x1 - x0;
    assert (a * x + b) - (a * x0 + b) == a * n;
    assert (a * x1 + b) - (a * x0 + b) == a * d;
    assert (y1 - y0) * (a * n) / (a * d) == (y1 - y0) * n / d;
  }
}

=== FILE: inventory.dfy ===
/** `DataInventory.__init__`: turning the basenames of a data directory into
    inventory records. A basename reads
    `<datetime>_N<node>_G_<grid square>_FRQ_<frequency label><suffix>`. */
module DataInventory {
  import opened Results
  import opened Seqs
  import opened Text

  /** The `Frequency` column after relabelling: a number of Hz for the labels
      of the rename table, the label string itself for every other label. */
  datatype FreqValue = Hz(hz: int) | Label(text: string)

  /** One inventory row; the `FRQ` field is dropped. */
  datatype Record = Record(
    datetime: int,        // nanoseconds, from the datetime token
    node: int,
    g: string,
    grid: string,
    frequency: FreqValue,
    filename: string)

  datatype Inventory = Inventory(records: seq<Record>, loggedNodes: seq<int>)

  /** The eight `df.loc[...] = ...` renames, in source order. */
  const Renames: seq<(string, int)> := [
    ("WWV5", 5000000), ("WWV10", 10000000), ("WWV2p5", 2500000),
    ("WWV15", 15000000), ("CHU3", 3330000), ("CHU7", 7850000),
    ("CHU14", 14670000), ("Unknown", 0)]

  /** One rename: values equal to the string `token` become `Hz(hz)`; a value
      already turned into a number never equals a string. */
  function Rename(v: FreqValue, token: string, hz: int): FreqValue
  {
    if v == Label(token) then Hz(hz) else v
  }

  function ApplyRenames(v: FreqValue, renames: seq<(string, int)>): FreqValue
    decreases |renames|
  {
    if |renames| == 0 then v
    else ApplyRenames(Rename(v, renames[0].0, renames[0].1), renames[1..])
  }

  predicate DistinctLabels(renames: seq<(string, int)>) {
    forall i, j :: 0 <= i < j < |renames| ==> renames[i].0 != renames[j].0
  }

  /** Applying distinct renames one after another is a single table lookup. */
  lemma {:induction false} ApplyRenamesLookup(v: FreqValue, renames: seq<(string, int)>)
    requires DistinctLabels(renames)
    ensures v.Hz? ==> ApplyRenames(v, renames) == v
    ensures v.Label? ==> forall k :: 0 <= k < |renames| && renames[k].0 == v.text ==>
              ApplyRenames(v, renames) == Hz(renames[k].1)
    ensures v.Label? && (forall k :: 0 <= k < |renames| ==> renames[k].0 != v.text) ==>
              ApplyRenames(v, renames) == v
    decreases |renames|
  {
    if |renames| > 0 {
      var w := Rename(v, renames[0].0, renames[0].1);
      ApplyRenamesLookup(w, renames[1..]);
      if v.Label? && v.text == renames[0].0 {
        forall k | 0 <= k < |renames| && renames[k].0 == v.text
          ensures k == 0
        {
        }
      }
      if v.Label? && v.text != renames[0].0 {
        forall k | 1 <= k < |renames| && renames[k].0 == v.text
          ensures renames[1..][k - 1].0 == v.text
        {
        }
      }
    }
  }

  /** The relabelling of a stripped frequency token: exactly the eight labels
      of the table become their frequency in Hz; any other label, numeric
      looking or not, is kept as the same string. */
  function Normalize(token: string): (r: FreqValue)
    ensures forall k :: 0 <= k < |Renames| && Renames[k].0 == token ==> r == Hz(Renames[k].1)
    ensures (forall k :: 0 <= k < |Renames| ==> Renames[k].0 != token) ==> r == Label(token)
  {
    assert DistinctLabels(Renames);
    ApplyRenamesLookup(Label(token), Renames);
    ApplyRenames(Label(token), Renames)
  }

  /** The six positional fields of a basename. */
  datatype NameFields = NameFields(datetime: string, node: string, g: string, grid: string,
                                   frq: string, frequency: string)

  /** `str.split('_')` of a basename, when it yields exactly six fields. */
  function Fields(name: string): Option<NameFields>
  {
    var f := Split(name, '_');
    if |f| == 6 then Some(NameFields(f[0], f[1], f[2], f[3], f[4], f[5])) else None
  }

  /** The range of numpy's default integer type `int64`, the target of
      `astype(int)`. */
  const Int64Min: int := -0x8000_0000_0000_0000
  const Int64Bound: int := 0x8000_0000_0000_0000

  predicate InInt64(n: int) {
    Int64Min <= n < Int64Bound
  }

  /** The node tag with its `N`s stripped, as `astype(str).astype(int)` reads
      it: an integer literal whose value fits `int64`; a larger one raises
      `OverflowError`. */
  function NodeNumber(tag: string): (r: Option<int>)
    ensures r.Some? ==> InInt64(r.value)
  {
    match ParseInt(Strip(tag, {'N'}))
    case Some(n) => if InInt64(n) then Some(n) else None
    case None => None
  }

  /** The frequency token with the characters of `suffix` stripped. */
  function FrequencyToken(field: string, suffix: string): string
  {
    Strip(field, CharSet(suffix))
  }

  /** A basename every column conversion accepts. */
  predicate WellFormedName(name: string, toTime: string -> Option<int>) {
    Fields(name).Some? && toTime(Fields(name).value.datetime).Some?
    && NodeNumber(Fields(name).value.node).Some?
  }

  /** A name whose frequency token contains `G1`, a known naming error. */
  predicate Discarded(name: string, suffix: string) {
    Fields(name).Some? && HasInfix(FrequencyToken(Fields(name).value.frequency, suffix), "G1")
  }

  /** The inventory row of one basename, `None` when a conversion fails. */
  function ParseName(name: string, suffix: string, toTime: string -> Option<int>): (r: Option<Record>)
    ensures r.Some? <==> WellFormedName(name, toTime)
  {
    match Fields(name)
    case None => None
    case Some(f) =>
      match toTime(f.datetime)
      case None => None
      case Some(t) =>
        match NodeNumber(f.node)
        case None => None
        case Some(n) => Some(Record(t, n, f.g, f.grid, Normalize(FrequencyToken(f.frequency, suffix)), name))
  }

  /** `rec` is the row of some kept name of the listing. */
  predicate FromListing(rec: Record, names: seq<string>, suffix: string, toTime: string -> Option<int>) {
    exists name :: name in names && !Discarded(name, suffix) && ParseName(name, suffix, toTime) == Some(rec)
  }

  /** The rows of the names that parse, in listing order. */
  function RecordsOf(kept: seq<string>, suffix: string, toTime: string -> Option<int>): (records: seq<Record>)
    ensures forall rec :: rec in records <==>
              exists name :: name in kept && ParseName(name, suffix, toTime) == Some(rec)
  {
    if |kept| == 0 then []
    else
      var head := match ParseName(kept[0], suffix, toTime) case Some(rec) => [rec] case None => [];
      var rest := RecordsOf(kept[1..], suffix, toTime);
      assert forall name :: name in kept <==> name == kept[0] || name in kept[1..];
      head + rest
  }

  /** The rows of the names that are kept, in listing order. */
  function Records(names: seq<string>, suffix: string, toTime: string -> Option<int>): (records: seq<Record>)
    ensures forall rec :: rec in records <==> FromListing(rec, names, suffix, toTime)
  {
    var keep := name => !Discarded(name, suffix);
    var kept := Filter(names, keep);
    assert forall name :: name in kept <==> name in names && !Discarded(name, suffix);
    RecordsOf(kept, suffix, toTime)
  }

  /** `df["Node"].unique().tolist()` followed by `sort()`. */
  function LoggedNodes(records: seq<Record>): (nodes: seq<int>)
    ensures StrictlyIncreasing(nodes)
    ensures forall n :: n in nodes <==> exists rec :: rec in records && rec.node == n
  {
    var column := seq(|records|, k requires 0 <= k < |records| => records[k].node);
    forall n
      ensures n in column <==> exists rec :: rec in records && rec.node == n
    {
      if n in column {
        var k :| 0 <= k < |column| && column[k] == n;
        assert records[k] in records;
      }
      if exists rec :: rec in records && rec.node == n {
        var rec :| rec in records && rec.node == n;
        var k :| 0 <= k < |records| && records[k] == rec;
        assert column[k] == n;
      }
    }
    SortedUnique(column)
  }

  /** The number of `_` fields of a basename. */
  function FieldCountOf(name: string): nat
  {
    |Split(name, '_')|
  }

  /** `str.split('_', expand=True)` pads every basename with missing values to
      the widest one, and naming the six columns succeeds exactly when that
      width is six. An empty listing splits into no columns at all. */
  predicate ColumnsFit(names: seq<string>) {
    && (forall i :: 0 <= i < |names| ==> FieldCountOf(names[i]) <= 6)
    && (exists i :: 0 <= i < |names| && FieldCountOf(names[i]) == 6)
  }

  /** The `Datetime` column of a padded row: the first field is always there. */
  function DatetimeField(name: string): string
  {
    Split(name, '_')[0]
  }

  /** The `Node` column of a padded row converts to an integer: a missing
      field reads `'nan'` after `astype(str)` and does not. */
  predicate NodeConverts(name: string) {
    FieldCountOf(name) >= 2 && NodeNumber(Split(name, '_')[1]).Some?
  }

  /** `pd.to_datetime` accepts the whole `Datetime` column. */
  predicate DatetimesParse(names: seq<string>, toTime: string -> Option<int>) {
    forall i :: 0 <= i < |names| ==> toTime(DatetimeField(names[i])).Some?
  }

  /** `astype(int)` accepts the whole `Node` column. */
  predicate NodesConvert(names: seq<string>) {
    forall i :: 0 <= i < |names| ==> NodeConverts(names[i])
  }

  /** No basename was padded, so the `G1` mask holds no NaN. */
  predicate NonePadded(names: seq<string>) {
    forall i :: 0 <= i < |names| ==> FieldCountOf(names[i]) >= 6
  }

  /** The column-wise conversions all succeed exactly when the listing is
      non-empty and every basename converts on its own. */
  lemma ColumnsConvert(names: seq<string>, toTime: string -> Option<int>)
    ensures (ColumnsFit(names) && DatetimesParse(names, toTime) && NodesConvert(names) && NonePadded(names))
            <==> (|names| > 0 && forall i :: 0 <= i < |names| ==> WellFormedName(names[i], toTime))
  {
    if |names| > 0 && forall i :: 0 <= i < |names| ==> WellFormedName(names[i], toTime) {
      assert FieldCountOf(names[0]) == 6;
    }
  }

  /** Parses the listing column by column as pandas does: naming the columns
      fails first, then `to_datetime` on any row, then the node cast on any
      row, then `~` on the `G1` mask, which holds a NaN for every padded name;
      only then are the `G1` names dropped. `toTime` stands for
      `pd.to_datetime` of one token. */
  function BuildInventory(names: seq<string>, suffix: string, toTime: string -> Option<int>): (r: Result<Inventory>)
    ensures r.Ok? <==> |names| > 0 && forall i :: 0 <= i < |names| ==> WellFormedName(names[i], toTime)
    ensures r == Err(FieldCount) <==> !ColumnsFit(names)
    ensures r == Err(BadDatetime) <==> ColumnsFit(names) && !DatetimesParse(names, toTime)
    ensures r == Err(BadNode) <==> ColumnsFit(names) && DatetimesParse(names, toTime) && !NodesConvert(names)
    ensures r == Err(MissingFrequency) <==>
              ColumnsFit(names) && DatetimesParse(names, toTime) && NodesConvert(names) && !NonePadded(names)
    ensures r.Ok? ==> forall rec :: rec in r.value.records <==> FromListing(rec, names, suffix, toTime)
    ensures r.Ok? ==> StrictlyIncreasing(r.value.loggedNodes)
    ensures r.Ok? ==> forall n :: n in r.value.loggedNodes <==>
              exists rec :: rec in r.value.records && rec.node == n
  {
    ColumnsConvert(names, toTime);
    if !ColumnsFit(names) then Err(FieldCount)
    else if !DatetimesParse(names, toTime) then Err(BadDatetime)
    else if !NodesConvert(names) then Err(BadNode)
    else if !NonePadded(names) then Err(MissingFrequency)
    else
      var records := Records(names, suffix, toTime);
      Ok(Inventory(records, LoggedNodes(records)))
  }

  /** A short basename never yields an inventory, and when another name has
      the full six fields the error is not the column count but whichever
      later conversion meets the padding first. */
  lemma ShortNameFails(names: seq<string>, suffix: string, toTime: string -> Option<int>, k: nat)
    requires k < |names| && FieldCountOf(names[k]) < 6
    ensures BuildInventory(names, suffix, toTime).Err?
    ensures ColumnsFit(names) ==> BuildInventory(names, suffix, toTime).error != FieldCount
  {
    assert !WellFormedName(names[k], toTime);
  }

  /** The node tag of the naming scheme, `N` and the node number padded with
      `pad` zeros (the program writes seven digits, `N{:07d}`). */
  function NodeTag(node: nat, pad: nat): string
  {
    "N" + Zeros(pad) + ShowNat(node)
  }

  /** A node tag, zero-padded or not, parses back to its node when the node
      fits `int64`, and is rejected otherwise. */
  lemma NodeTagRoundTrip(node: nat, pad: nat)
    ensures '_' !in NodeTag(node, pad)
    ensures NodeNumber(NodeTag(node, pad)) == if node < Int64Bound then Some(node) else None
  {
    TagDigits(node, pad);
  }

  /** Stripping the `N` of a node tag leaves digits that `int()` reads as the
      node. */
  lemma TagDigits(node: nat, pad: nat)
    ensures '_' !in NodeTag(node, pad)
    ensures ParseInt(Strip(NodeTag(node, pad), {'N'})) == Some(node)
  {
    var digits := Zeros(pad) + ShowNat(node);
    assert NodeTag(node, pad) == "N" + digits;
    DigitsIgnoreZeros(pad, ShowNat(node));
    NumeralTag(digits);
    ParsePadded(pad, node);
  }

  /** `N` before a numeral is stripped off, and no `_` is involved. */
  lemma NumeralTag(digits: string)
    requires IsNumeral(digits)
    ensures '_' !in "N" + digits
    ensures Strip("N" + digits, {'N'}) == digits
  {
    assert !IsDigit('N') && !IsDigit('_');
    assert digits[0] in digits && digits[|digits| - 1] in digits;
    StripLeading("N", digits, {'N'});
  }

  /** Parsing inverts the naming scheme: a basename written from its parts
      yields a record holding exactly those parts, the label relabelled, and
      no record when the node number does not fit `int64`. */
  lemma NameRoundTrip(dt: string, node: nat, pad: nat, g: string, grid: string, token: string,
                      suffix: string, toTime: string -> Option<int>)
    requires '_' !in dt && '_' !in g && '_' !in grid && '_' !in token && '_' !in suffix
    requires toTime(dt).Some?
    requires |token| > 0 && token[0] !in suffix && token[|token| - 1] !in suffix
    ensures var name := Join([dt, NodeTag(node, pad), g, grid, "FRQ", token + suffix], '_');
            ParseName(name, suffix, toTime)
            == if node < Int64Bound then Some(Record(toTime(dt).value, node, g, grid, Normalize(token), name))
               else None
  {
    var tag := NodeTag(node, pad);
    var parts := [dt, tag, g, grid, "FRQ", token + suffix];
    var name := Join(parts, '_');
    NodeTagRoundTrip(node, pad);
    assert '_' !in token + suffix;
    assert forall i :: 0 <= i < |parts| ==> '_' !in parts[i];
    SplitJoin(parts, '_');
    assert Fields(name) == Some(NameFields(dt, tag, g, grid, "FRQ", token + suffix));
    assert FrequencyToken(token + suffix, suffix) == token by {
      StripTrailing(token, suffix, CharSet(suffix));
    }
  }
}

=== FILE: load.dfy ===
/** `GrapeData.__load_raw`: choosing the inventory files of one node and
    frequency inside a time window, merging their rows into one time-ordered
    raw series with the frequency offset removed, and resolving the station
    metadata. */
module Loading {
  import opened Results
  import opened Seqs
  import opened DataInventory
  import opened GrapeNodes
  import opened Frames

  /** One row of a Grape1 data file: `UTC`, `Freq`, `Vpk`. */
  datatype Sample = Sample(utc: int, freq: real, vpk: real)

  function DatetimeOf(rec: Record): int {
    rec.datetime
  }

  function SampleTime(s: Sample): int {
    s.utc
  }

  /** `Frequency == freq` and `Node == node`. A relabelled frequency compares
      equal to a number; a label left as a string never does. */
  predicate Matches(rec: Record, freq: int, node: int) {
    rec.frequency == Hz(freq) && rec.node == node
  }

  /** The node+frequency subset, in inventory order. */
  function Subset(records: seq<Record>, freq: int, node: int): (sub: seq<Record>)
    ensures forall rec :: rec in sub <==> rec in records && Matches(rec, freq, node)
    ensures forall rec :: multiset(sub)[rec] == if Matches(rec, freq, node) then multiset(records)[rec] else 0
  {
    Filter(records, rec => Matches(rec, freq, node))
  }

  /** `min(dft['Datetime'])`. */
  function Earliest(recs: seq<Record>): (m: int)
    requires |recs| > 0
    ensures forall i :: 0 <= i < |recs| ==> m <= recs[i].datetime
    ensures exists i :: 0 <= i < |recs| && recs[i].datetime == m
  {
    if |recs| == 1 then recs[0].datetime
    else
      var m := Earliest(recs[1..]);
      assert forall i :: 1 <= i < |recs| ==> recs[i] == recs[1..][i - 1];
      if recs[0].datetime <= m then recs[0].datetime else m
  }

  /** `max(dft['Datetime'])`. */
  function Latest(recs: seq<Record>): (m: int)
    requires |recs| > 0
    ensures forall i :: 0 <= i < |recs| ==> recs[i].datetime <= m
    ensures exists i :: 0 <= i < |recs| && recs[i].datetime == m
  {
    if |recs| == 1 then recs[0].datetime
    else
      var m := Latest(recs[1..]);
      assert forall i :: 1 <= i < |recs| ==> recs[i] == recs[1..][i - 1];
      if recs[0].datetime >= m then recs[0].datetime else m
  }

  /** The window `[sTime, eTime)`, each end defaulting to the earliest and the
      latest datetime of the subset; a default on an empty subset fails as
      `min`/`max` of an empty sequence does, the start first. */
  function Window(sub: seq<Record>, sTime: Option<int>, eTime: Option<int>): (w: Result<(int, int)>)
    ensures w.Err? <==> |sub| == 0 && (sTime.None? || eTime.None?)
    ensures w.Err? ==> w.error == EmptySubset
    ensures w.Ok? && sTime.Some? ==> w.value.0 == sTime.value
    ensures w.Ok? && eTime.Some? ==> w.value.1 == eTime.value
    ensures w.Ok? && sTime.None? ==> |sub| > 0 && w.value.0 == Earliest(sub)
    ensures w.Ok? && eTime.None? ==> |sub| > 0 && w.value.1 == Latest(sub)
  {
    var lo :- match sTime
              case Some(t) => Ok(t)
              case None => if |sub| == 0 then Err(EmptySubset) else Ok(Earliest(sub));
    var hi :- match eTime
              case Some(t) => Ok(t)
              case None => if |sub| == 0 then Err(EmptySubset) else Ok(Latest(sub));
    Ok((lo, hi))
  }

  /** The selection of lines 329-346: matching files inside the window, sorted
      by datetime. */
  function SelectFiles(records: seq<Record>, freq: int, node: int, sTime: Option<int>, eTime: Option<int>)
    : (r: Result<seq<Record>>)
    ensures Window(Subset(records, freq, node), sTime, eTime).Err? <==> r.Err?
    ensures r.Err? ==> r.error == EmptySubset
    ensures r.Ok? ==> SortedBy(r.value, DatetimeOf)
    ensures r.Ok? ==>
              var (lo, hi) := Window(Subset(records, freq, node), sTime, eTime).value;
              forall rec :: multiset(r.value)[rec] ==
                if Matches(rec, freq, node) && lo <= rec.datetime < hi then multiset(records)[rec] else 0
  {
    var sub := Subset(records, freq, node);
    var (lo, hi) :- Window(sub, sTime, eTime);
    var inside := Filter(sub, (rec: Record) => lo <= rec.datetime < hi);
    SortByPermutes(inside, DatetimeOf);
    SortByOrders(inside, DatetimeOf);
    Ok(SortBy(inside, DatetimeOf))
  }

  /** A file is selected exactly when it is an inventory row of the node and
      frequency whose datetime lies in the window. */
  lemma SelectedFiles(records: seq<Record>, freq: int, node: int, sTime: Option<int>, eTime: Option<int>, rec: Record)
    requires SelectFiles(records, freq, node, sTime, eTime).Ok?
    ensures var (lo, hi) := Window(Subset(records, freq, node), sTime, eTime).value;
            rec in SelectFiles(records, freq, node, sTime, eTime).value <==>
              rec in records && Matches(rec, freq, node) && lo <= rec.datetime < hi
  {
    var sel := SelectFiles(records, freq, node, sTime, eTime).value;
    assert rec in sel <==> multiset(sel)[rec] > 0;
    assert rec in records <==> multiset(records)[rec] > 0;
  }

  /** With the end left to its default the window is half-open at the latest
      datetime, so the latest file of the node and frequency is never read. */
  lemma LatestFileExcluded(records: seq<Record>, freq: int, node: int, sTime: Option<int>, rec: Record)
    requires SelectFiles(records, freq, node, sTime, None).Ok?
    requires rec in records && Matches(rec, freq, node)
    requires rec.datetime == Latest(Subset(records, freq, node))
    ensures rec !in SelectFiles(records, freq, node, sTime, None).value
  {
    SelectedFiles(records, freq, node, sTime, None, rec);
  }

  /** `df_load['Freq'] - freq`. */
  function Offset(s: Sample, freq: int): Sample {
    s.(freq := s.freq - freq as real)
  }

  /** Adding the centre frequency back. */
  function Restore(s: Sample, freq: int): Sample {
    s.(freq := s.freq + freq as real)
  }

  lemma OffsetRestore(s: Sample, freq: int)
    ensures Restore(Offset(s, freq), freq) == s
    ensures Offset(Restore(s, freq), freq) == s
  {
  }

  function OffsetAll(rows: seq<Sample>, freq: int): (r: seq<Sample>)
    ensures |r| == |rows|
    ensures forall i :: 0 <= i < |rows| ==> r[i] == rows[i].(freq := rows[i].freq - freq as real)
  {
    seq(|rows|, i requires 0 <= i < |rows| => Offset(rows[i], freq))
  }

  function RestoreAll(rows: seq<Sample>, freq: int): (r: seq<Sample>)
    ensures |r| == |rows|
    ensures forall i :: 0 <= i < |rows| ==> r[i] == rows[i].(freq := rows[i].freq + freq as real)
  {
    seq(|rows|, i requires 0 <= i < |rows| => Restore(rows[i], freq))
  }

  /** The rows of every selected file, in selection order; `contents` stands
      for `pd.read_csv` of the file of that name. */
  function FileRows(sel: seq<Record>, contents: string -> seq<Sample>): (files: seq<seq<Sample>>)
    ensures |files| == |sel|
    ensures forall i :: 0 <= i < |sel| ==> files[i] == contents(sel[i].filename)
  {
    seq(|sel|, i requires 0 <= i < |sel| => contents(sel[i].filename))
  }

  /** The list `df_raw` the loop of lines 351-361 builds: one offset piece per
      file that has rows. */
  function Pieces(files: seq<seq<Sample>>, freq: int): (pieces: seq<seq<Sample>>)
    ensures |pieces| <= |files|
    ensures forall p :: p in pieces ==> |p| > 0
    ensures |pieces| == 0 <==> forall i :: 0 <= i < |files| ==> |files[i]| == 0
  {
    if |files| == 0 then []
    else
      var rest := Pieces(files[1..], freq);
      assert forall i :: 1 <= i < |files| ==> files[i] == files[1..][i - 1];
      if |files[0]| == 0 then rest else [OffsetAll(files[0], freq)] + rest
  }

  /** `pd.concat(df_raw).sort_values('UTC')`. */
  function MergeFiles(sel: seq<Record>, contents: string -> seq<Sample>, freq: int): (r: Result<seq<Sample>>)
    ensures r.Err? <==> forall i :: 0 <= i < |sel| ==> |contents(sel[i].filename)| == 0
    ensures r.Err? ==> r.error == NothingToConcatenate
    ensures r.Ok? ==> SortedBy(r.value, SampleTime)
    ensures r.Ok? ==> multiset(r.value) == multiset(Flatten(Pieces(FileRows(sel, contents), freq)))
  {
    var pieces := Pieces(FileRows(sel, contents), freq);
    if |pieces| == 0 then Err(NothingToConcatenate)
    else
      SortByPermutes(Flatten(pieces), SampleTime);
      SortByOrders(Flatten(pieces), SampleTime);
      Ok(SortBy(Flatten(pieces), SampleTime))
  }

  /** The pieces are the offset file rows with the empty files left out:
      restoring the frequency gives back every file row, each once. */
  lemma {:induction false} PiecesRestore(files: seq<seq<Sample>>, freq: int)
    ensures RestoreAll(Flatten(Pieces(files, freq)), freq) == Flatten(files)
  {
    if |files| > 0 {
      PiecesRestore(files[1..], freq);
      var rest := Flatten(Pieces(files[1..], freq));
      if |files[0]| > 0 {
        var head := OffsetAll(files[0], freq);
        assert Flatten(Pieces(files, freq)) == head + rest;
        assert RestoreAll(head + rest, freq) == RestoreAll(head, freq) + RestoreAll(rest, freq);
        assert RestoreAll(head, freq) == files[0];
      } else {
        assert files[0] == [];
      }
    }
  }

  /** The merged series holds the rows of the selected files, each with the
      centre frequency subtracted exactly once: adding it back yields the
      multiset of all rows read. */
  lemma MergedRows(sel: seq<Record>, contents: string -> seq<Sample>, freq: int)
    requires MergeFiles(sel, contents, freq).Ok?
    ensures multiset(RestoreAll(MergeFiles(sel, contents, freq).value, freq))
            == multiset(Flatten(FileRows(sel, contents)))
  {
    var files := FileRows(sel, contents);
    var flat := Flatten(Pieces(files, freq));
    var merged := MergeFiles(sel, contents, freq).value;
    PiecesRestore(files, freq);
    MapPermutation(merged, flat, freq);
  }

  /** Restoring the frequency of two permutations of each other gives two
      permutations of each other. */
  lemma MapPermutation(a: seq<Sample>, b: seq<Sample>, freq: int)
    requires multiset(a) == multiset(b)
    ensures multiset(RestoreAll(a, freq)) == multiset(RestoreAll(b, freq))
  {
    forall y ensures multiset(RestoreAll(a, freq))[y] == multiset(RestoreAll(b, freq))[y] {
      RestoreCount(a, freq, y);
      RestoreCount(b, freq, y);
    }
  }

  /** Restoring is one-to-one: a restored row occurs as often as the row it
      came from. */
  lemma {:induction false} RestoreCount(a: seq<Sample>, freq: int, y: Sample)
    ensures multiset(RestoreAll(a, freq))[y] == multiset(a)[Offset(y, freq)]
  {
    if |a| > 0 {
      var rest := RestoreAll(a[1..], freq);
      RestoreCount(a[1..], freq, y);
      assert a == [a[0]] + a[1..];
      assert RestoreAll(a, freq) == [Restore(a[0], freq)] + rest;
      assert multiset(RestoreAll(a, freq)) == multiset{Restore(a[0], freq)} + multiset(rest);
      assert multiset(a) == multiset{a[0]} + multiset(a[1..]);
      OffsetRestore(a[0], freq);
      OffsetRestore(y, freq);
    }
  }

  /** The station description stored in `meta`: the call sign that goes into
      the label, and the coordinates. */
  datatype Meta = Meta(callSign: string, lat: Option<real>, lon: Option<real>)

  /** `grape_nodes.nodes_df.loc[node, column]` for a column chosen by `get`:
      the field of the first row with that node number, or the `KeyError`. */
  function Attribute<T>(table: seq<NodeRow>, node: int, get: NodeRow -> T): (r: Result<T>)
    ensures r.Ok? <==> exists i :: 0 <= i < |table| && table[i].number == node
    ensures r.Ok? ==>
              exists i :: 0 <= i < |table| && table[i].number == node && r.value == get(table[i]) &&
                (forall j :: 0 <= j < i ==> table[j].number != node)
    ensures r.Err? ==> r.error == UnknownNode(node)
  {
    match Lookup(table, node)
    case Some(row) => Ok(get(row))
    case None => Err(UnknownNode(node))
  }

  /** The call sign as lines 366-369 compute it: looked up when none is given
      and a node table is, and otherwise the empty string, so that a call sign
      passed in by the caller is dropped. */
  function CallSignAsWritten(node: int, callSign: Option<string>, nodes: Option<seq<NodeRow>>): (r: Result<string>)
    ensures callSign.Some? ==> r == Ok("")
    ensures nodes.None? ==> r == Ok("")
    ensures callSign.None? && nodes.Some? ==> r == Attribute(nodes.value, node, (row: NodeRow) => row.callsign)
  {
    if callSign.None? && nodes.Some? then Attribute(nodes.value, node, (row: NodeRow) => row.callsign)
    else Ok("")
  }

  /** The discarded call sign: a caller naming the station `W2NAF` gets a
      label with no call sign at all. */
  lemma CallSignDropped(node: int, nodes: Option<seq<NodeRow>>)
    ensures CallSignAsWritten(node, Some("W2NAF"), nodes) == Ok("")
  {
  }

  /** The call sign as the `call_sign` parameter documents it: the caller's
      own if given, else the node table's, else empty. */
  function CallSign(node: int, callSign: Option<string>, nodes: Option<seq<NodeRow>>): (r: Result<string>)
    ensures callSign.Some? ==> r == Ok(callSign.value)
    ensures callSign.None? && nodes.None? ==> r == Ok("")
    ensures callSign.None? && nodes.Some? ==> r == Attribute(nodes.value, node, (row: NodeRow) => row.callsign)
  {
    match callSign
    case Some(c) => Ok(c)
    case None => CallSignAsWritten(node, callSign, nodes)
  }

  /** The corrected call sign keeps the caller's, and agrees with the code as
      written whenever the caller gives none. */
  lemma CallSignCorrected(node: int, callSign: Option<string>, nodes: Option<seq<NodeRow>>)
    ensures callSign.Some? ==> CallSign(node, callSign, nodes) == Ok(callSign.value)
    ensures callSign.None? ==> CallSign(node, callSign, nodes) == CallSignAsWritten(node, callSign, nodes)
    ensures CallSign(node, callSign, nodes).Err? <==> CallSignAsWritten(node, callSign, nodes).Err?
  {
  }

  /** A coordinate: the caller's if given, otherwise the node table's when
      there is one, otherwise absent. */
  function Coordinate(node: int, given: Option<real>, nodes: Option<seq<NodeRow>>, get: NodeRow -> real)
    : (r: Result<Option<real>>)
    ensures given.Some? || nodes.None? ==> r == Ok(given)
    ensures given.None? && nodes.Some? ==>
              (r.Ok? <==> Lookup(nodes.value, node).Some?) &&
              (r.Ok? ==> r.value == Some(get(Lookup(nodes.value, node).value)))
  {
    if given.None? && nodes.Some? then
      var v :- Attribute(nodes.value, node, get);
      Ok(Some(v))
    else Ok(given)
  }

  /** Lines 366-377: call sign, then latitude, then longitude. Only a table
      lookup can fail, and it fails exactly when the node is not in the table. */
  function ResolveMeta(node: int, callSign: Option<string>, lat: Option<real>, lon: Option<real>,
                       nodes: Option<seq<NodeRow>>): (r: Result<Meta>)
    ensures r.Err? <==> nodes.Some? && Lookup(nodes.value, node).None? &&
                        (callSign.None? || lat.None? || lon.None?)
    ensures r.Err? ==> r.error == UnknownNode(node)
    ensures r.Ok? && callSign.Some? ==> r.value.callSign == callSign.value
    ensures r.Ok? && lat.Some? ==> r.value.lat == lat
    ensures r.Ok? && lon.Some? ==> r.value.lon == lon
    ensures r.Ok? && nodes.Some? && Lookup(nodes.value, node).Some? ==>
              var row := Lookup(nodes.value, node).value;
              && (callSign.None? ==> r.value.callSign == row.callsign)
              && (lat.None? ==> r.value.lat == Some(row.latitude))
              && (lon.None? ==> r.value.lon == Some(row.longitude))
    ensures r.Ok? && nodes.None? ==> r.value == Meta(if callSign.Some? then callSign.value else "", lat, lon)
  {
    var c :- CallSign(node, callSign, nodes);
    var la :- Coordinate(node, lat, nodes, (row: NodeRow) => row.latitude);
    var lo :- Coordinate(node, lon, nodes, (row: NodeRow) => row.longitude);
    Ok(Meta(c, la, lo))
  }

  /** The data columns of a Grape1 file after `UTC`. */
  const RawColumns: seq<string> := ["Freq", "Vpk"]

  /** The merged samples as a frame. */
  function RawFrame(samples: seq<Sample>): (f: Frame)
    ensures WellFormed(f) && f.names == RawColumns && |f.rows| == |samples|
    ensures forall i :: 0 <= i < |samples| ==>
              f.rows[i].utc == samples[i].utc && f.rows[i].vals == [samples[i].freq, samples[i].vpk]
  {
    Frame(RawColumns, seq(|samples|, i requires 0 <= i < |samples| =>
      Row(samples[i].utc, [samples[i].freq, samples[i].vpk])))
  }

  /** Reads the samples back out of a raw frame. */
  function SamplesOf(f: Frame): (samples: seq<Sample>)
    requires WellFormed(f) && f.names == RawColumns
    ensures |samples| == |f.rows|
  {
    seq(|f.rows|, i requires 0 <= i < |f.rows| =>
      Sample(f.rows[i].utc, f.rows[i].vals[0], f.rows[i].vals[1]))
  }

  /** A raw frame holds the samples and nothing else. */
  lemma RawFrameRoundTrip(samples: seq<Sample>, f: Frame)
    ensures SamplesOf(RawFrame(samples)) == samples
    ensures WellFormed(f) && f.names == RawColumns ==> RawFrame(SamplesOf(f)) == f
  {
    if WellFormed(f) && f.names == RawColumns {
      var g := RawFrame(SamplesOf(f));
      assert forall i :: 0 <= i < |f.rows| ==> g.rows[i] == f.rows[i];
    }
  }

  /** `__load_raw`: select the files, merge them, resolve the station, in that
      order; the first step to fail decides the error. */
  function LoadRaw(records: seq<Record>, contents: string -> seq<Sample>, freq: int, node: int,
                   sTime: Option<int>, eTime: Option<int>,
                   callSign: Option<string>, lat: Option<real>, lon: Option<real>,
                   nodes: Option<seq<NodeRow>>): (r: Result<(Frame, Meta)>)
    ensures SelectFiles(records, freq, node, sTime, eTime).Err? ==> r == Err(EmptySubset)
    ensures SelectFiles(records, freq, node, sTime, eTime).Ok? ==>
              var sel := SelectFiles(records, freq, node, sTime, eTime).value;
              && (MergeFiles(sel, contents, freq).Err? ==> r == Err(NothingToConcatenate))
              && (MergeFiles(sel, contents, freq).Ok? ==>
                    (r.Err? <==> ResolveMeta(node, callSign, lat, lon, nodes).Err?))
              && (r.Ok? ==> MergeFiles(sel, contents, freq).Ok? &&
                            r.value.0 == RawFrame(MergeFiles(sel, contents, freq).value))
    ensures r.Ok? ==> r.value.1 == ResolveMeta(node, callSign, lat, lon, nodes).value
    ensures r.Ok? ==> WellFormed(r.value.0) && r.value.0.names == RawColumns && |r.value.0.rows| > 0
    ensures r.Ok? ==> forall i, j :: 0 <= i < j < |r.value.0.rows| ==> r.value.0.rows[i].utc <= r.value.0.rows[j].utc
  {
    var sel :- SelectFiles(records, freq, node, sTime, eTime);
    var merged :- MergeFiles(sel, contents, freq);
    var meta :- ResolveMeta(node, callSign, lat, lon, nodes);
    assert |merged| > 0 by {
      assert multiset(merged) == multiset(Flatten(Pieces(FileRows(sel, contents), freq)));
      NonEmptyPieces(Pieces(FileRows(sel, contents), freq));
    }
    Ok((RawFrame(merged), meta))
  }

  /** Concatenating pieces none of which is empty leaves something exactly
      when there is a piece. */
  lemma NonEmptyPieces<T>(pieces: seq<seq<T>>)
    requires forall p :: p in pieces ==> |p| > 0
    ensures |Flatten(pieces)| > 0 <==> |pieces| > 0
  {
    if |pieces| > 0 {
      assert pieces[0] in pieces;
    }
  }
}

=== FILE: nodes.dfy ===
/** `GrapeNodes`: the node table read from `nodelist.csv`, keyed by node
    number, and its derived `Status` column. */
module GrapeNodes {
  import opened Results

  datatype Status = DataLogged | NoDataLogged

  /** The text the `Status` column holds. */
  function StatusText(s: Status): string
  {
    match s
    case DataLogged => "Data logged"
    case NoDataLogged => "No data logged"
  }

  /** One row of the table; `status` is `None` until a status is computed. */
  datatype NodeRow = NodeRow(
    number: int,
    callsign: string,
    latitude: real,
    longitude: real,
    status: Option<Status>)

  /** `update_status`: every row gets a status, "Data logged" exactly when its
      node number is among the logged nodes; nothing else in the table moves. */
  function UpdateStatus(table: seq<NodeRow>, logged: seq<int>): (r: seq<NodeRow>)
    ensures |r| == |table|
    ensures forall i :: 0 <= i < |r| ==> r[i].status.Some?
    ensures forall i :: 0 <= i < |r| ==> (r[i].status == Some(DataLogged) <==> table[i].number in logged)
    ensures forall i :: 0 <= i < |r| ==> r[i] == table[i].(status := r[i].status)
  {
    seq(|table|, i requires 0 <= i < |table| =>
      table[i].(status := Some(if table[i].number in logged then DataLogged else NoDataLogged)))
  }

  /** The constructor: the status column is added only when `logged_nodes`
      is a non-empty list (an absent list counts as empty). */
  function MakeNodes(table: seq<NodeRow>, logged: seq<int>): (r: seq<NodeRow>)
    ensures |logged| == 0 ==> r == table
    ensures |logged| > 0 ==> |r| == |table| && forall i :: 0 <= i < |r| ==>
              r[i].status == Some(if table[i].number in logged then DataLogged else NoDataLogged)
  {
    if |logged| > 0 then UpdateStatus(table, logged) else table
  }

  /** A later `update_status` on a constructed table overwrites the whole
      column: the result depends only on the table read and the latest logged
      nodes, whatever list the constructor was given. With the same list, the
      constructor's table is left as it is. */
  lemma UpdateAfterMake(table: seq<NodeRow>, first: seq<int>, logged: seq<int>)
    ensures UpdateStatus(MakeNodes(table, first), logged) == UpdateStatus(table, logged)
    ensures |logged| > 0 ==> UpdateStatus(MakeNodes(table, logged), logged) == MakeNodes(table, logged)
  {
    var made := MakeNodes(table, first);
    assert forall i :: 0 <= i < |made| ==> made[i].number == table[i].number;
    assert forall i :: 0 <= i < |made| ==> made[i].(status := None) == table[i].(status := None);
  }

  /** `nodes_df.loc[node]`: the first row with that node number. */
  function Lookup(table: seq<NodeRow>, node: int): (r: Option<NodeRow>)
    ensures r.Some? <==> exists i :: 0 <= i < |table| && table[i].number == node
    ensures r.Some? ==> r.value in table && r.value.number == node
    ensures r.Some? ==>
              exists i :: 0 <= i < |table| && table[i] == r.value &&
                (forall j :: 0 <= j < i ==> table[j].number != node)
  {
    if |table| == 0 then None
    else if table[0].number == node then Some(table[0])
    else
      var r := Lookup(table[1..], node);
      assert forall i :: 1 <= i < |table| ==> table[i] == table[1..][i - 1];
      if r.Some? then
        var i :| 0 <= i < |table[1..]| && table[1..][i] == r.value &&
                 forall j :: 0 <= j < i ==> table[1..][j].number != node;
        assert table[i + 1] == r.value;
        r
      else r
  }
}

=== FILE: resample.dfy ===
/** `GrapeData.resample_data`: the frame is put on a regular grid that starts
    at its first timestamp truncated to whole seconds and steps by the resample
    rate until it reaches the truncated last timestamp; every named column is
    linearly interpolated at the grid times over Julian dates. */
module Resample {
  import opened Results
  import opened Seqs
  import opened Frames
  import opened Interpolation

  const TicksPerSecond: int := 1_000_000_000


  /** `datetime.datetime(Y, M, D, h, m, s)` of a timestamp: the timestamp with
      its sub-second part dropped, toward the past. */
  function WholeSecond(t: int): (w: int)
    ensures w <= t < w + TicksPerSecond
    ensures w % TicksPerSecond == 0
  {
    t - t % TicksPerSecond
  }

  /** Truncation keeps a whole-second timestamp and is idempotent. */
  lemma WholeSecondUnique(t: int, w: int)
    requires w <= t < w + TicksPerSecond && w % TicksPerSecond == 0
    ensures WholeSecond(t) == w
  {
    var v := WholeSecond(t);
    assert v % TicksPerSecond == 0 && w % TicksPerSecond == 0;
    assert -TicksPerSecond < v - w < TicksPerSecond;
    assert (v - w) % TicksPerSecond == 0;
  }

  /** A non-empty sequence of times whose first and last bound all the others. */
  predicate Bracketed(grid: seq<int>) {
    |grid| >= 1 && forall i :: 0 <= i < |grid| ==> grid[0] <= grid[i] <= grid[|grid| - 1]
  }

  /** The loop `while rs_times[-1] < e: rs_times.append(rs_times[-1] + rate)`
      started from `[t]`. Without a positive rate it ends only when it never
      starts. */
  function Grid(t: int, e: int, rate: int): (g: seq<int>)
    requires rate > 0 || t >= e
    ensures |g| >= 1 && g[0] == t
    ensures forall i :: 0 <= i < |g| - 1 ==> g[i] < e
    ensures g[|g| - 1] >= e
    ensures Bracketed(g)
    decreases if t < e then e - t else 0
  {
    if t >= e then [t] else [t] + Grid(t + rate, e, rate)
  }

  /** The i-th grid time is `t + i * rate`. */
  lemma {:induction false} GridClosedForm(t: int, e: int, rate: int)
    requires rate > 0 || t >= e
    ensures forall i :: 0 <= i < |Grid(t, e, rate)| ==> Grid(t, e, rate)[i] == t + i * rate
    decreases if t < e then e - t else 0
  {
    if t < e {
      GridClosedForm(t + rate, e, rate);
      var g := Grid(t, e, rate);
      forall i | 1 <= i < |g|
        ensures g[i] == t + i * rate
      {
        assert g[i] == Grid(t + rate, e, rate)[i - 1];
        assert t + rate + (i - 1) * rate == t + i * rate;
      }
    }
  }

  /** The number of grid times is one more than the number of whole rate steps
      needed to reach the end: (n - 2) * rate < e - t <= (n - 1) * rate. */
  lemma GridLength(t: int, e: int, rate: int)
    requires rate > 0 && t < e
    ensures var n := |Grid(t, e, rate)|;
            n >= 2 && (n - 2) * rate < e - t <= (n - 1) * rate
  {
    var g := Grid(t, e, rate);
    var n := |g|;
    GridClosedForm(t, e, rate);
    assert g[n - 1] == t + (n - 1) * rate;
    assert n >= 2 by {
      if n == 1 {
        assert g[0] == t;
      }
    }
    assert g[n - 2] == t + (n - 2) * rate;
  }

  /** Consecutive grid times are one rate apart. */
  lemma {:induction false} GridSteps(t: int, e: int, rate: int)
    requires rate > 0 || t >= e
    ensures forall i :: 0 <= i < |Grid(t, e, rate)| - 1 ==> Grid(t, e, rate)[i + 1] == Grid(t, e, rate)[i] + rate
    decreases if t < e then e - t else 0
  {
    if t < e {
      GridSteps(t + rate, e, rate);
      var g, h := Grid(t, e, rate), Grid(t + rate, e, rate);
      assert g == [t] + h;
      forall i | 0 <= i < |g| - 1
        ensures g[i + 1] == g[i] + rate
      {
        assert g[i + 1] == h[i];
        if i > 0 {
          var j := i - 1;
          assert g[i] == h[j] && h[j + 1] == h[j] + rate;
        }
      }
    }
  }

  /** A positive rate gives strictly increasing grid times. */
  lemma GridIncreasing(t: int, e: int, rate: int)
    requires rate > 0
    ensures StrictlyIncreasing(Grid(t, e, rate))
  {
    GridSteps(t, e, rate);
    OnGridShape(Grid(t, e, rate), rate);
  }

  /** Two end times that the same grid steps over give the same grid. */
  lemma {:induction false} GridSameEnd(t: int, e: int, e2: int, rate: int)
    requires rate > 0
    requires forall i :: 0 <= i < |Grid(t, e, rate)| - 1 ==> Grid(t, e, rate)[i] < e2
    requires Grid(t, e, rate)[|Grid(t, e, rate)| - 1] >= e2
    ensures Grid(t, e2, rate) == Grid(t, e, rate)
    decreases if t < e then e - t else 0
  {
    var g := Grid(t, e, rate);
    if t < e {
      var h := Grid(t + rate, e, rate);
      assert g == [t] + h;
      assert t < e2 by {
        assert g[0] == t;
      }
      forall i | 0 <= i < |h| - 1
        ensures h[i] < e2
      {
        assert h[i] == g[i + 1];
      }
      GridSameEnd(t + rate, e, e2, rate);
    }
  }

  /** Julian date of a nanosecond timestamp: the days since the Unix epoch
      (86400 * 10^9 nanoseconds a day) plus 2440587.5, the Julian date of the
      epoch; an increasing affine map. */
  function Julian(t: int): real {
    Scale(1.0 / 86400000000000.0, 2440587.5, t as real)
  }

  lemma JulianMonotone(a: int, b: int)
    ensures a <= b <==> Julian(a) <= Julian(b)
    ensures a < b <==> Julian(a) < Julian(b)
  {
  }

  function ByTime(r: Row): int {
    r.utc
  }

  /** The `UTC` column as a real axis of nanoseconds. */
  function RealTimes(rows: seq<Row>): (xs: seq<real>)
    ensures |xs| == |rows|
    ensures forall i :: 0 <= i < |rows| ==> xs[i] == rows[i].utc as real
  {
    seq(|rows|, i requires 0 <= i < |rows| => rows[i].utc as real)
  }

  /** `[x.to_julian_date() for x in df['UTC']]`. */
  function JulianTimes(rows: seq<Row>): (jd: seq<real>)
    ensures |jd| == |rows|
    ensures forall i :: 0 <= i < |rows| ==> jd[i] == Julian(rows[i].utc)
  {
    Affine(RealTimes(rows), 1.0 / 86400000000000.0, 2440587.5)
  }

  /** `df['UTC'].min()`. */
  function MinTime(rows: seq<Row>): (m: int)
    requires |rows| > 0
    ensures forall i :: 0 <= i < |rows| ==> m <= rows[i].utc
    ensures exists i :: 0 <= i < |rows| && rows[i].utc == m
  {
    if |rows| == 1 then rows[0].utc
    else
      var m := MinTime(rows[1..]);
      assert forall i :: 1 <= i < |rows| ==> rows[i] == rows[1..][i - 1];
      if rows[0].utc <= m then rows[0].utc else m
  }

  /** `df['UTC'].max()`. */
  function MaxTime(rows: seq<Row>): (m: int)
    requires |rows| > 0
    ensures forall i :: 0 <= i < |rows| ==> rows[i].utc <= m
    ensures exists i :: 0 <= i < |rows| && rows[i].utc == m
  {
    if |rows| == 1 then rows[0].utc
    else
      var m := MaxTime(rows[1..]);
      assert forall i :: 1 <= i < |rows| ==> rows[i] == rows[1..][i - 1];
      if rows[0].utc >= m then rows[0].utc else m
  }

  /** The grid `resample_data` builds for a non-empty frame. */
  function GridOf(rows: seq<Row>, rate: int): seq<int>
    requires |rows| > 0
    requires rate > 0 || WholeSecond(MinTime(rows)) >= WholeSecond(MaxTime(rows))
  {
    Grid(WholeSecond(MinTime(rows)), WholeSecond(MaxTime(rows)), rate)
  }

  /** The first and last rows in time order are the earliest and latest. */
  lemma SortedEnds(rows: seq<Row>)
    requires |rows| > 0
    ensures var sorted := SortBy(rows, ByTime);
            sorted[0].utc == MinTime(rows) && sorted[|sorted| - 1].utc == MaxTime(rows)
  {
    var sorted := SortBy(rows, ByTime);
    SortByPermutes(rows, ByTime);
    SortByOrders(rows, ByTime);
    SameElements(sorted, rows);
    SortedByBounds(sorted, ByTime);
    SortedFirst(rows, sorted);
    SortedLast(rows, sorted);
  }

  lemma SortedFirst(rows: seq<Row>, sorted: seq<Row>)
    requires |rows| > 0 && |sorted| > 0
    requires forall x :: x in sorted <==> x in rows
    requires forall x :: x in sorted ==> sorted[0].utc <= x.utc
    ensures sorted[0].utc == MinTime(rows)
  {
    var lo :| 0 <= lo < |rows| && rows[lo].utc == MinTime(rows);
    assert rows[lo] in sorted;
    assert sorted[0] in sorted;
    var a :| 0 <= a < |rows| && rows[a] == sorted[0];
  }

  lemma SortedLast(rows: seq<Row>, sorted: seq<Row>)
    requires |rows| > 0 && |sorted| > 0
    requires forall x :: x in sorted <==> x in rows
    requires forall x :: x in sorted ==> x.utc <= sorted[|sorted| - 1].utc
    ensures sorted[|sorted| - 1].utc == MaxTime(rows)
  {
    var hi :| 0 <= hi < |rows| && rows[hi].utc == MaxTime(rows);
    assert rows[hi] in sorted;
    assert sorted[|sorted| - 1] in sorted;
    var b :| 0 <= b < |rows| && rows[b] == sorted[|sorted| - 1];
  }

  /** `interp1d(jd, column)(t.to_julian_date())` for a time inside the sampled
      range of rows in time order. */
  function Interpolate(sorted: seq<Row>, k: nat, t: int): real
    requires |sorted| >= 2
    requires forall i :: 0 <= i < |sorted| ==> k < |sorted[i].vals|
    requires sorted[0].utc <= t <= sorted[|sorted| - 1].utc
  {
    JulianMonotone(sorted[0].utc, t);
    JulianMonotone(t, sorted[|sorted| - 1].utc);
    Interp(JulianTimes(sorted), Column(sorted, k), Julian(t))
  }

  /** The rows of a frame without named columns at the grid times. */
  function TimeRows(grid: seq<int>): (rows: seq<Row>)
    ensures Times(rows) == grid
    ensures forall i :: 0 <= i < |rows| ==> rows[i].vals == []
  {
    seq(|grid|, i requires 0 <= i < |grid| => Row(grid[i], []))
  }

  /** Rows in time order with n values each that interp1d can read at every
      grid time: at least two of them, and no grid time before the first or
      after the last. */
  predicate Spans(sorted: seq<Row>, n: nat, grid: seq<int>) {
    && |sorted| >= 2 && |grid| >= 1
    && (forall i :: 0 <= i < |sorted| ==> |sorted[i].vals| == n)
    && Bracketed(grid)
    && sorted[0].utc <= grid[0] && grid[|grid| - 1] <= sorted[|sorted| - 1].utc
  }

  /** The rows of the resampled frame: at each grid time, every column of the
      rows (in time order) interpolated there. */
  function InterpolatedRows(sorted: seq<Row>, n: nat, grid: seq<int>): (rows: seq<Row>)
    requires Spans(sorted, n, grid)
    ensures Times(rows) == grid
    ensures forall i :: 0 <= i < |rows| ==> |rows[i].vals| == n
  {
    seq(|grid|, i requires 0 <= i < |grid| =>
      Row(grid[i], seq(n, k requires 0 <= k < n => Interpolate(sorted, k, grid[i]))))
  }

  /** Every row of a well-formed frame, in any order, has one value per name. */
  lemma SortedWidths(f: Frame)
    requires WellFormed(f)
    ensures forall i :: 0 <= i < |SortBy(f.rows, ByTime)| ==> |SortBy(f.rows, ByTime)[i].vals| == |f.names|
  {
    var sorted := SortBy(f.rows, ByTime);
    SortByPermutes(f.rows, ByTime);
    SameElements(sorted, f.rows);
    forall i | 0 <= i < |sorted|
      ensures |sorted[i].vals| == |f.names|
    {
      assert sorted[i] in f.rows;
    }
  }

  /** interp1d built over the rows in time order and called at the grid: its
      checks (at least two points, no grid time before the first or after the
      last sample), then the interpolated rows. interp1d compares Julian
      dates; `RangeCheckJulian` shows that comparing the timestamps is the
      same check. */
  function InterpolateOnGrid(names: seq<string>, sorted: seq<Row>, grid: seq<int>): (r: Result<Frame>)
    requires forall i :: 0 <= i < |sorted| ==> |sorted[i].vals| == |names|
    requires Bracketed(grid)
    ensures r.Ok? ==> r.value.names == names && Times(r.value.rows) == grid
    ensures r.Ok? ==> forall i :: 0 <= i < |r.value.rows| ==> |r.value.rows[i].vals| == |names|
    ensures r.Ok? <==> |sorted| >= 2 && sorted[0].utc <= grid[0] && grid[|grid| - 1] <= sorted[|sorted| - 1].utc
  {
    if |sorted| < 2 then Err(TooFewSamples)
    else if grid[0] < sorted[0].utc then Err(BelowRange)
    else if grid[|grid| - 1] > sorted[|sorted| - 1].utc then Err(AboveRange)
    else Ok(Frame(names, InterpolatedRows(sorted, |names|, grid)))
  }

  /** interp1d's bounds check on Julian dates accepts and rejects the same
      grids as the check on timestamps. */
  lemma RangeCheckJulian(sorted: seq<Row>, grid: seq<int>)
    requires |sorted| >= 2 && |grid| >= 1
    ensures var jd := JulianTimes(sorted);
            && (Julian(grid[0]) < jd[0] <==> grid[0] < sorted[0].utc)
            && (Julian(grid[|grid| - 1]) > jd[|jd| - 1] <==> grid[|grid| - 1] > sorted[|sorted| - 1].utc)
  {
    JulianMonotone(sorted[0].utc, grid[0]);
    JulianMonotone(grid[|grid| - 1], sorted[|sorted| - 1].utc);
  }

  /** `resample_data` on one frame. The errors come in the order the source
      meets them: no rows (the truncation of a missing minimum), a loop that
      cannot reach the end time (endless at rate 0, an `OverflowError` below
      it), then interp1d's own checks on the first named column. */
  function ResampleFrame(f: Frame, rate: int): (r: Result<Frame>)
    requires WellFormed(f)
    ensures |f.rows| == 0 <==> r == Err(EmptySeries)
    ensures r.Ok? ==> WellFormed(r.value) && r.value.names == f.names
    ensures r.Ok? ==> |f.rows| > 0 && (rate > 0 || WholeSecond(MinTime(f.rows)) >= WholeSecond(MaxTime(f.rows)))
    ensures r.Ok? ==> Times(r.value.rows) == GridOf(f.rows, rate)
    ensures r.Ok? && |f.names| > 0 ==> |f.rows| >= 2
  {
    if |f.rows| == 0 then Err(EmptySeries)
    else
      var s := WholeSecond(MinTime(f.rows));
      var e := WholeSecond(MaxTime(f.rows));
      if rate <= 0 && s < e then Err(GridDiverges)
      else
        var grid := Grid(s, e, rate);
        if |f.names| == 0 then Ok(Frame(f.names, TimeRows(grid)))
        else
          SortedWidths(f);
          InterpolateOnGrid(f.names, SortBy(f.rows, ByTime), grid)
  }

  /** A successful resample with a column to interpolate had rows, a grid
      loop that ends, and rows in time order that span the grid. */
  lemma ResampleSpans(f: Frame, rate: int, out: Frame)
    requires WellFormed(f) && ResampleFrame(f, rate) == Ok(out) && |f.names| > 0
    ensures |f.rows| > 0 && (rate > 0 || WholeSecond(MinTime(f.rows)) >= WholeSecond(MaxTime(f.rows)))
    ensures Spans(SortBy(f.rows, ByTime), |f.names|, GridOf(f.rows, rate))
  {
    SortedWidths(f);
  }

  /** The output of such a resample is the interpolation of the rows in time
      order at the grid times. */
  lemma ResampleRows(f: Frame, rate: int, out: Frame)
    requires WellFormed(f) && ResampleFrame(f, rate) == Ok(out) && |f.names| > 0
    ensures |f.rows| > 0 && (rate > 0 || WholeSecond(MinTime(f.rows)) >= WholeSecond(MaxTime(f.rows)))
    ensures Spans(SortBy(f.rows, ByTime), |f.names|, GridOf(f.rows, rate))
    ensures out == Frame(f.names, InterpolatedRows(SortBy(f.rows, ByTime), |f.names|, GridOf(f.rows, rate)))
  {
    ResampleSpans(f, rate, out);
    assert ResampleFrame(f, rate) == InterpolateOnGrid(f.names, SortBy(f.rows, ByTime), GridOf(f.rows, rate));
  }

  /** Where a resampled frame comes from: each value is the interpolant of the
      input rows in time order at the row's grid time. */
  lemma ResampleValue(f: Frame, rate: int, out: Frame, i: nat, k: nat)
    requires WellFormed(f) && ResampleFrame(f, rate) == Ok(out)
    requires i < |out.rows| && k < |f.names|
    ensures InterpolatesAt(SortBy(f.rows, ByTime), k, out.rows[i].utc, out.rows[i].vals[k])
  {
    ResampleRows(f, rate, out);
    RowInterpolates(SortBy(f.rows, ByTime), |f.names|, GridOf(f.rows, rate), i, k);
  }

  /** Every row has a k-th value. */
  predicate HasColumn(sorted: seq<Row>, k: nat) {
    forall j :: 0 <= j < |sorted| ==> k < |sorted[j].vals|
  }

  /** `v` is the k-th column of the rows in time order, interpolated at `t`
      inside their time range. */
  predicate InterpolatesAt(sorted: seq<Row>, k: nat, t: int, v: real) {
    && |sorted| >= 2 && HasColumn(sorted, k)
    && sorted[0].utc <= t <= sorted[|sorted| - 1].utc
    && v == Interpolate(sorted, k, t)
  }

  /** Each interpolated row holds the interpolant at its grid time. */
  lemma RowInterpolates(sorted: seq<Row>, n: nat, grid: seq<int>, i: nat, k: nat)
    requires Spans(sorted, n, grid) && i < |grid| && k < n
    ensures var rows := InterpolatedRows(sorted, n, grid);
            i < |rows| && k < |rows[i].vals| && InterpolatesAt(sorted, k, grid[i], rows[i].vals[k])
  {
    assert grid[0] <= grid[i] <= grid[|grid| - 1];
  }

  /** The resampled frame exists exactly when the frame has rows, the grid loop
      ends, and (when there is a column to interpolate) there are two rows, the
      first timestamp is a whole second and the grid does not pass the last
      timestamp. */
  lemma ResampleOk(f: Frame, rate: int)
    requires WellFormed(f)
    ensures ResampleFrame(f, rate).Ok? <==>
              && |f.rows| > 0
              && (rate > 0 || WholeSecond(MinTime(f.rows)) >= WholeSecond(MaxTime(f.rows)))
              && (|f.names| == 0 ||
                  (&& |f.rows| >= 2
                   && MinTime(f.rows) % TicksPerSecond == 0
                   && GridOf(f.rows, rate)[|GridOf(f.rows, rate)| - 1] <= MaxTime(f.rows)))
  {
    if |f.rows| > 0 {
      var lo, hi := MinTime(f.rows), MaxTime(f.rows);
      var s, e := WholeSecond(lo), WholeSecond(hi);
      if rate <= 0 && s < e {
        assert ResampleFrame(f, rate) == Err(GridDiverges);
      } else if |f.names| > 0 {
        var sorted := SortBy(f.rows, ByTime);
        var grid := Grid(s, e, rate);
        SortedWidths(f);
        assert ResampleFrame(f, rate) == InterpolateOnGrid(f.names, sorted, grid);
        SortedEnds(f.rows);
        InterpolateOnGridOk(f.names, sorted, grid, lo, hi);
        assert GridOf(f.rows, rate) == grid && |sorted| == |f.rows|;
      }
    }
  }

  /** interp1d accepts a grid that starts at the truncated first timestamp
      exactly when there are two rows, the first timestamp is a whole second
      and the grid ends by the last one. */
  lemma InterpolateOnGridOk(names: seq<string>, sorted: seq<Row>, grid: seq<int>, lo: int, hi: int)
    requires forall i :: 0 <= i < |sorted| ==> |sorted[i].vals| == |names|
    requires Bracketed(grid)
    requires |sorted| > 0 && sorted[0].utc == lo && sorted[|sorted| - 1].utc == hi
    requires grid[0] == WholeSecond(lo)
    ensures InterpolateOnGrid(names, sorted, grid).Ok? <==>
              |sorted| >= 2 && lo % TicksPerSecond == 0 && grid[|grid| - 1] <= hi
  {
    assert WholeSecond(lo) >= lo <==> lo % TicksPerSecond == 0;
  }

  /** A first timestamp with a sub-second part always fails: the grid starts
      at its truncation, before the first sample. */
  lemma FractionalStartFails(f: Frame, rate: int)
    requires WellFormed(f) && |f.names| > 0 && |f.rows| >= 2
    requires MinTime(f.rows) % TicksPerSecond != 0
    requires rate > 0 || WholeSecond(MinTime(f.rows)) >= WholeSecond(MaxTime(f.rows))
    ensures ResampleFrame(f, rate) == Err(BelowRange)
  {
    var s := WholeSecond(MinTime(f.rows));
    SortedEnds(f.rows);
    JulianMonotone(s, MinTime(f.rows));
  }

  /** Interpolating over Julian dates is interpolating over the nanosecond
      timestamps themselves: each resampled value is the piecewise-linear
      function through the (UTC, value) points, read at the grid time. */
  lemma ResampleInterpolates(f: Frame, rate: int, out: Frame, i: nat, k: nat)
    requires WellFormed(f) && ResampleFrame(f, rate) == Ok(out)
    requires i < |out.rows| && k < |f.names|
    ensures var sorted := SortBy(f.rows, ByTime);
            var xs := RealTimes(sorted);
            && |sorted| >= 2 && HasColumn(sorted, k)
            && xs[0] <= out.rows[i].utc as real <= xs[|xs| - 1]
            && out.rows[i].vals[k] == Interp(xs, Column(sorted, k), out.rows[i].utc as real)
  {
    ResampleValue(f, rate, out, i, k);
    InterpolateInNanoseconds(SortBy(f.rows, ByTime), k, out.rows[i].utc);
  }

  lemma InterpolateInNanoseconds(sorted: seq<Row>, k: nat, t: int)
    requires |sorted| >= 2
    requires forall i :: 0 <= i < |sorted| ==> k < |sorted[i].vals|
    requires sorted[0].utc <= t <= sorted[|sorted| - 1].utc
    ensures var xs := RealTimes(sorted);
            xs[0] <= t as real <= xs[|xs| - 1] &&
            Interpolate(sorted, k, t) == Interp(xs, Column(sorted, k), t as real)
  {
    var xs := RealTimes(sorted);
    var ys := Column(sorted, k);
    InterpAffine(xs, ys, t as real, 1.0 / 86400000000000.0, 2440587.5);
    assert JulianTimes(sorted) == Affine(xs, 1.0 / 86400000000000.0, 2440587.5);
    InterpolateIs(sorted, k, t);
  }

  lemma InterpolateIs(sorted: seq<Row>, k: nat, t: int)
    requires |sorted| >= 2
    requires forall i :: 0 <= i < |sorted| ==> k < |sorted[i].vals|
    requires sorted[0].utc <= t <= sorted[|sorted| - 1].utc
    ensures var jd := JulianTimes(sorted);
            jd[0] <= Julian(t) <= jd[|jd| - 1] &&
            Interpolate(sorted, k, t) == Interp(jd, Column(sorted, k), Julian(t))
  {
    JulianMonotone(sorted[0].utc, t);
    JulianMonotone(t, sorted[|sorted| - 1].utc);
  }

  /** The rows are in strictly increasing time order. */
  predicate TimeOrdered(rows: seq<Row>) {
    StrictlyIncreasing(Times(rows))
  }

  lemma JulianIncreasing(rows: seq<Row>)
    requires TimeOrdered(rows)
    ensures Increasing(JulianTimes(rows))
  {
    var jd := JulianTimes(rows);
    forall i, j | 0 <= i < j < |rows|
      ensures jd[i] < jd[j]
    {
      assert Times(rows)[i] < Times(rows)[j];
      JulianMonotone(rows[i].utc, rows[j].utc);
    }
  }

  /** Rows already in time order are left in place by the sort interp1d does. */
  lemma TimeOrderedSorted(rows: seq<Row>)
    requires TimeOrdered(rows)
    ensures SortBy(rows, ByTime) == rows
  {
    assert SortedBy(rows, ByTime) by {
      forall i, j | 0 <= i < j < |rows|
        ensures ByTime(rows[i]) <= ByTime(rows[j])
      {
        assert Times(rows)[i] < Times(rows)[j];
      }
    }
    SortBySorted(rows, ByTime);
  }

  /** Interpolating rows at their own distinct times gives the rows back. */
  lemma InterpolateAtOwnTimes(rows: seq<Row>, n: nat)
    requires TimeOrdered(rows) && |rows| >= 2
    requires forall i :: 0 <= i < |rows| ==> |rows[i].vals| == n
    ensures Spans(rows, n, Times(rows)) && InterpolatedRows(rows, n, Times(rows)) == rows
  {
    var grid := Times(rows);
    assert Bracketed(grid) by {
      forall i | 0 <= i < |grid|
        ensures grid[0] <= grid[i] <= grid[|grid| - 1]
      {
        if 0 < i { assert grid[0] < grid[i]; }
        if i < |grid| - 1 { assert grid[i] < grid[|grid| - 1]; }
      }
    }
    var out := InterpolatedRows(rows, n, grid);
    JulianIncreasing(rows);
    forall i | 0 <= i < |rows|
      ensures out[i] == rows[i]
    {
      forall k | 0 <= k < n
        ensures out[i].vals[k] == rows[i].vals[k]
      {
        InterpAtSample(JulianTimes(rows), Column(rows, k), i);
      }
    }
  }

  /** A resampled value at a grid time that coincides with a sample of a frame
      with distinct, ordered timestamps is that sample's value. */
  lemma ResampleAtSample(f: Frame, rate: int, out: Frame, i: nat, j: nat, k: nat)
    requires WellFormed(f) && TimeOrdered(f.rows) && ResampleFrame(f, rate) == Ok(out)
    requires i < |out.rows| && j < |f.rows| && k < |f.names|
    requires out.rows[i].utc == f.rows[j].utc
    ensures out.rows[i].vals[k] == f.rows[j].vals[k]
  {
    ResampleValue(f, rate, out, i, k);
    ValueAtSample(f.rows, k, j, out.rows[i].vals[k]);
  }

  lemma ValueAtSample(rows: seq<Row>, k: nat, j: nat, v: real)
    requires TimeOrdered(rows) && |rows| >= 2 && j < |rows|
    requires forall i :: 0 <= i < |rows| ==> k < |rows[i].vals|
    requires InterpolatesAt(SortBy(rows, ByTime), k, rows[j].utc, v)
    ensures v == rows[j].vals[k]
  {
    TimeOrderedSorted(rows);
    InterpolateAtSample(rows, k, j);
  }

  lemma InterpolateAtSample(rows: seq<Row>, k: nat, j: nat)
    requires TimeOrdered(rows) && |rows| >= 2 && j < |rows|
    requires forall i :: 0 <= i < |rows| ==> k < |rows[i].vals|
    ensures rows[0].utc <= rows[j].utc <= rows[|rows| - 1].utc
    ensures Interpolate(rows, k, rows[j].utc) == rows[j].vals[k]
  {
    var ts := Times(rows);
    if 0 < j { assert ts[0] < ts[j]; }
    if j < |rows| - 1 { assert ts[j] < ts[|rows| - 1]; }
    JulianIncreasing(rows);
    InterpAtSample(JulianTimes(rows), Column(rows, k), j);
  }

  /** Resampled values stay within any bounds the column's samples keep. */
  lemma ResampleBounded(f: Frame, rate: int, out: Frame, i: nat, k: nat, lo: real, hi: real)
    requires WellFormed(f) && ResampleFrame(f, rate) == Ok(out)
    requires i < |out.rows| && k < |f.names|
    requires forall j :: 0 <= j < |f.rows| ==> lo <= f.rows[j].vals[k] <= hi
    ensures lo <= out.rows[i].vals[k] <= hi
  {
    ResampleValue(f, rate, out, i, k);
    BoundedValue(f.rows, k, out.rows[i].utc, out.rows[i].vals[k], lo, hi);
  }

  lemma BoundedValue(rows: seq<Row>, k: nat, t: int, v: real, lo: real, hi: real)
    requires forall j :: 0 <= j < |rows| ==> k < |rows[j].vals| && lo <= rows[j].vals[k] <= hi
    requires InterpolatesAt(SortBy(rows, ByTime), k, t, v)
    ensures lo <= v <= hi
  {
    var sorted := SortBy(rows, ByTime);
    SortByPermutes(rows, ByTime);
    SameElements(sorted, rows);
    var ys := Column(sorted, k);
    forall j | 0 <= j < |ys|
      ensures lo <= ys[j] <= hi
    {
      assert sorted[j] in rows;
    }
    JulianMonotone(sorted[0].utc, t);
    JulianMonotone(t, sorted[|sorted| - 1].utc);
    InterpBounded(JulianTimes(sorted), ys, Julian(t), lo, hi);
  }

  /** With a whole-second start and rate, every grid time is a whole second. */
  lemma {:induction false} GridWholeSeconds(t: int, e: int, rate: int)
    requires rate > 0 && t % TicksPerSecond == 0 && rate % TicksPerSecond == 0
    ensures forall i :: 0 <= i < |Grid(t, e, rate)| ==> Grid(t, e, rate)[i] % TicksPerSecond == 0
    decreases if t < e then e - t else 0
  {
    if t < e {
      GridWholeSeconds(t + rate, e, rate);
      assert Grid(t, e, rate) == [t] + Grid(t + rate, e, rate);
    }
  }

  /** interp1d on rows at their own distinct timestamps returns the rows. */
  lemma InterpolateOnOwnGrid(names: seq<string>, rows: seq<Row>)
    requires TimeOrdered(rows) && |rows| >= 2
    requires forall i :: 0 <= i < |rows| ==> |rows[i].vals| == |names|
    ensures Bracketed(Times(rows)) && InterpolateOnGrid(names, rows, Times(rows)) == Ok(Frame(names, rows))
  {
    InterpolateAtOwnTimes(rows, |names|);
  }

  /** A frame without named columns is its `UTC` column. */
  lemma TimeRowsOwn(g: Frame)
    requires WellFormed(g) && |g.names| == 0
    ensures TimeRows(Times(g.rows)) == g.rows
  {
  }

  /** A frame whose timestamps are whole seconds, one rate apart, is a fixed
      point of resampling at that rate (given two rows when there is a column
      to interpolate). */
  lemma ResampleOnGrid(g: Frame, rate: int)
    requires WellFormed(g) && rate > 0 && |g.rows| > 0
    requires forall i :: 0 <= i < |g.rows| ==> g.rows[i].utc % TicksPerSecond == 0
    requires forall i :: 0 <= i < |g.rows| - 1 ==> g.rows[i + 1].utc == g.rows[i].utc + rate
    requires |g.names| == 0 || |g.rows| >= 2
    ensures ResampleFrame(g, rate) == Ok(g)
  {
    OnGridOwnGrid(g.rows, rate);
    if |g.names| == 0 {
      TimeRowsOwn(g);
    } else {
      TimeOrderedSorted(g.rows);
      InterpolateOnOwnGrid(g.names, g.rows);
    }
  }

  /** Rows at whole seconds one rate apart are in time order and are their
      own resampling grid. */
  lemma OnGridOwnGrid(rows: seq<Row>, rate: int)
    requires rate > 0 && |rows| > 0
    requires forall i :: 0 <= i < |rows| ==> rows[i].utc % TicksPerSecond == 0
    requires forall i :: 0 <= i < |rows| - 1 ==> rows[i + 1].utc == rows[i].utc + rate
    ensures TimeOrdered(rows) && GridOf(rows, rate) == Times(rows)
  {
    var ts := Times(rows);
    OnGridShape(ts, rate);
    assert MinTime(rows) == ts[0] && MaxTime(rows) == ts[|ts| - 1] by {
      var a :| 0 <= a < |rows| && rows[a].utc == MinTime(rows);
      var b :| 0 <= b < |rows| && rows[b].utc == MaxTime(rows);
      if 0 < a {
        assert ts[0] < ts[a];
      }
      if b < |ts| - 1 {
        assert ts[b] < ts[|ts| - 1];
      }
    }
    WholeSecondUnique(ts[0], ts[0]);
    WholeSecondUnique(ts[|ts| - 1], ts[|ts| - 1]);
    GridOfSteps(ts, rate);
  }

  /** Times one positive rate apart are strictly increasing. */
  lemma OnGridShape(ts: seq<int>, rate: int)
    requires rate > 0 && |ts| > 0
    requires forall i :: 0 <= i < |ts| - 1 ==> ts[i + 1] == ts[i] + rate
    ensures StrictlyIncreasing(ts)
  {
    forall i, j | 0 <= i < j < |ts|
      ensures ts[i] < ts[j]
    {
      StepsIncrease(ts, rate, i, j);
    }
  }

  lemma {:induction false} StepsIncrease(ts: seq<int>, rate: int, i: nat, j: nat)
    requires rate > 0 && i < j < |ts|
    requires forall m :: 0 <= m < |ts| - 1 ==> ts[m + 1] == ts[m] + rate
    ensures ts[i] < ts[j]
    decreases j - i
  {
    if i + 1 < j {
      StepsIncrease(ts, rate, i + 1, j);
    }
  }

  /** Times one rate apart are the grid from their first to their last. */
  lemma {:induction false} GridOfSteps(ts: seq<int>, rate: int)
    requires rate > 0 && |ts| > 0
    requires forall i :: 0 <= i < |ts| - 1 ==> ts[i + 1] == ts[i] + rate
    ensures Grid(ts[0], ts[|ts| - 1], rate) == ts
    decreases |ts|
  {
    OnGridShape(ts, rate);
    if |ts| > 1 {
      var rest := ts[1..];
      GridOfSteps(rest, rate);
      assert ts[0] < ts[|ts| - 1];
      assert ts == [ts[0]] + rest;
    }
  }

  /** Resampling at a whole-second rate is idempotent: the resampled frame is
      already on its own grid (when the first resampling left two rows, or no
      column to interpolate). */
  lemma ResampleIdempotent(f: Frame, rate: int, out: Frame)
    requires WellFormed(f) && rate > 0 && rate % TicksPerSecond == 0
    requires ResampleFrame(f, rate) == Ok(out)
    requires |f.names| == 0 || |out.rows| >= 2
    ensures ResampleFrame(out, rate) == Ok(out)
  {
    var s := WholeSecond(MinTime(f.rows));
    var e := WholeSecond(MaxTime(f.rows));
    GridWholeSeconds(s, e, rate);
    GridSteps(s, e, rate);
    assert Times(out.rows) == Grid(s, e, rate);
    ResampleOnGrid(out, rate);
  }
}

=== FILE: results.dfy ===
/** Failure values of the grape1 pipeline and a Result wrapper usable with `:-`.
    Every exception the Python code can raise on the modelled paths becomes one
    `Error` constructor. */
module Results {

  datatype Option<+T> = None | Some(value: T)

  datatype Error =
    | FieldCount            // the widest basename of the listing does not have six `_` fields
    | BadDatetime           // the datetime token is not a parseable timestamp
    | BadNode               // the node tag is missing, or not an int64 integer once its `N`s are stripped
    | MissingFrequency      // a basename with fewer than six fields: `~` meets a NaN in the `G1` mask
    | EmptySubset           // min()/max() of the datetimes of an empty node+frequency subset
    | NothingToConcatenate  // pd.concat of an empty list of loaded files
    | UnknownNode(node: int)          // nodes_df.loc[node, ...] on a node not in the table
    | MissingStage(stage: string)     // self.data[stage] on a stage never produced
    | EmptySeries           // resampling a frame without rows
    | GridDiverges          // the resample loop cannot reach the end: endless at rate 0, OverflowError below
    | TooFewSamples         // interp1d over fewer than two points (scipy releases that demand two)
    | BelowRange            // interp1d asked for a time before the first sample
    | AboveRange            // interp1d asked for a time after the last sample
    | TooFewForRate         // np.unique(np.diff(UTC))[0] on fewer than two rows
    | ZeroSpacing           // a repeated UTC time: the smallest spacing is zero, a division by zero
    | NonPositiveRate       // a sampling rate that is not positive
    | NonPositivePeriod     // a cutoff period <= 0: a critical frequency that is not positive
    | CutoffsNotIncreasing  // two or more critical frequencies not in increasing order
    | UnknownBandType(name: string)   // a band type the filter design does not know
    | NegativeOrder         // a filter order below zero
    | CutoffAboveNyquist    // a critical frequency at or above half the sampling rate
    | WrongCutoffCount      // one cutoff for a band filter, or two for a low/high-pass one
    | MissingColumn(column: string)   // df[param] on a column the frame lacks
    | NotNumeric(column: string)      // filtfilt on the datetime column
    | TooShortToFilter(column: string) // filtfilt on a column no longer than its padding

  datatype Result<+T> = Ok(value: T) | Err(error: Error) {

    predicate IsFailure() {
      Err?
    }

    function PropagateFailure<U>(): Result<U>
      requires Err?
    {
      Err(error)
    }

    function Extract(): T
      requires Ok?
    {
      value
    }
  }
}

=== FILE: seqs.dfy ===
/** Generic sequence operations the pipeline is built from: filtering, stable
    sorting by an integer key, flattening, and the sorted duplicate-free list
    that `unique()` followed by `sort()` produces. */
module Seqs {

  /** `s` is in ascending order of `key` (ties allowed). */
  predicate SortedBy<T>(s: seq<T>, key: T -> int) {
    forall i, j :: 0 <= i < j < |s| ==> key(s[i]) <= key(s[j])
  }

  predicate StrictlyIncreasing(s: seq<int>) {
    forall i, j :: 0 <= i < j < |s| ==> s[i] < s[j]
  }

  /** The elements of `s` that satisfy `p`, in their original order. */
  function Filter<T(!new)>(s: seq<T>, p: T -> bool): (r: seq<T>)
    ensures |r| <= |s|
    ensures forall i :: 0 <= i < |r| ==> p(r[i])
    ensures forall x :: multiset(r)[x] == if p(x) then multiset(s)[x] else 0
    ensures forall x :: x in r <==> x in s && p(x)
  {
    if |s| == 0 then []
    else
      var rest := Filter(s[1..], p);
      assert s == [s[0]] + s[1..];
      assert forall x :: x in s[1..] ==> x in s;
      if p(s[0]) then [s[0]] + rest else rest
  }

  /** Places `x` in front of the first element whose key is not smaller. */
  function Insert<T>(x: T, s: seq<T>, key: T -> int): (r: seq<T>)
    ensures |r| == |s| + 1
    decreases |s|
  {
    if |s| == 0 || key(x) <= key(s[0]) then [x] + s
    else [s[0]] + Insert(x, s[1..], key)
  }

  /** Insertion adds exactly one occurrence of `x`. */
  lemma {:induction false} InsertPermutes<T>(x: T, s: seq<T>, key: T -> int)
    ensures multiset(Insert(x, s, key)) == multiset(s) + multiset{x}
    decreases |s|
  {
    if |s| > 0 && key(x) > key(s[0]) {
      InsertPermutes(x, s[1..], key);
      assert s == [s[0]] + s[1..];
    }
  }

  /** Insertion into a sequence in key order keeps it in key order. */
  lemma {:induction false} InsertSorted<T>(x: T, s: seq<T>, key: T -> int)
    requires SortedBy(s, key)
    ensures SortedBy(Insert(x, s, key), key)
    decreases |s|
  {
    if |s| > 0 && key(x) > key(s[0]) {
      var rest := Insert(x, s[1..], key);
      InsertSorted(x, s[1..], key);
      InsertPermutes(x, s[1..], key);
      forall i | 0 <= i < |rest|
        ensures key(s[0]) <= key(rest[i])
      {
        assert rest[i] in multiset(rest);
        if rest[i] != x {
          assert rest[i] in multiset(s[1..]);
          var k :| 0 <= k < |s[1..]| && s[1..][k] == rest[i];
          assert s[k + 1] == rest[i];
        }
      }
      var r := Insert(x, s, key);
      assert r == [s[0]] + rest;
      forall i, j | 0 <= i < j < |r|
        ensures key(r[i]) <= key(r[j])
      {
        assert r[j] == rest[j - 1];
        if i > 0 {
          assert r[i] == rest[i - 1];
        }
      }
    }
  }

  /** Insertion sort by `key`. `SortByOrders` and `SortByPermutes` show the
      result is a permutation of `s` in ascending key order. */
  function SortBy<T>(s: seq<T>, key: T -> int): (r: seq<T>)
    ensures |r| == |s|
  {
    if |s| == 0 then []
    else Insert(s[0], SortBy(s[1..], key), key)
  }

  /** The sorted sequence is in ascending key order. */
  lemma {:induction false} SortByOrders<T>(s: seq<T>, key: T -> int)
    ensures SortedBy(SortBy(s, key), key)
  {
    if |s| > 0 {
      SortByOrders(s[1..], key);
      InsertSorted(s[0], SortBy(s[1..], key), key);
    }
  }

  /** Sorting keeps every element with its multiplicity. */
  lemma {:induction false} SortByPermutes<T>(s: seq<T>, key: T -> int)
    ensures multiset(SortBy(s, key)) == multiset(s)
  {
    if |s| > 0 {
      SortByPermutes(s[1..], key);
      InsertPermutes(s[0], SortBy(s[1..], key), key);
      assert s == [s[0]] + s[1..];
    }
  }

  /** Sorting a sequence that is already in key order leaves it as it is. */
  lemma {:induction false} SortBySorted<T>(s: seq<T>, key: T -> int)
    requires SortedBy(s, key)
    ensures SortBy(s, key) == s
  {
    if |s| > 0 {
      SortBySorted(s[1..], key);
      assert SortBy(s[1..], key) == s[1..];
      assert s == [s[0]] + s[1..];
    }
  }

  /** Two sequences with the same multiset have the same elements. */
  lemma SameElements<T>(a: seq<T>, b: seq<T>)
    requires multiset(a) == multiset(b)
    ensures forall x :: x in a <==> x in b
  {
    forall x
      ensures x in a <==> x in b
    {
      assert x in a <==> x in multiset(a);
      assert x in b <==> x in multiset(b);
    }
  }

  /** The first and last elements of a sorted sequence bound the keys of all. */
  lemma SortedByBounds<T>(s: seq<T>, key: T -> int)
    requires SortedBy(s, key) && |s| > 0
    ensures forall x :: x in s ==> key(s[0]) <= key(x) <= key(s[|s| - 1])
  {
    forall x | x in s
      ensures key(s[0]) <= key(x) <= key(s[|s| - 1])
    {
      var i :| 0 <= i < |s| && s[i] == x;
      if 0 < i {
        assert key(s[0]) <= key(s[i]);
      }
      if i < |s| - 1 {
        assert key(s[i]) <= key(s[|s| - 1]);
      }
    }
  }

  /** The concatenation of all pieces, in order. */
  function Flatten<T>(pieces: seq<seq<T>>): (r: seq<T>)
  {
    if |pieces| == 0 then [] else pieces[0] + Flatten(pieces[1..])
  }

  /** Adds `x` to a strictly increasing sequence unless it is already there. */
  function InsertUnique(x: int, s: seq<int>): (r: seq<int>)
    requires StrictlyIncreasing(s)
    ensures StrictlyIncreasing(r)
    ensures forall y :: y in r <==> y in s || y == x
    decreases |s|
  {
    if |s| == 0 || x < s[0] then [x] + s
    else if x == s[0] then s
    else
      var rest := InsertUnique(x, s[1..]);
      assert forall y :: y in s[1..] ==> s[0] < y;
      ConsIncreasing(s[0], rest);
      assert s == [s[0]] + s[1..];
      [s[0]] + rest
  }

  /** A head below every element of a strictly increasing tail keeps it so. */
  lemma ConsIncreasing(h: int, t: seq<int>)
    requires StrictlyIncreasing(t) && forall y :: y in t ==> h < y
    ensures StrictlyIncreasing([h] + t)
  {
    var r := [h] + t;
    forall i, j | 0 <= i < j < |r|
      ensures r[i] < r[j]
    {
      assert r[j] == t[j - 1];
      if i > 0 {
        assert r[i] == t[i - 1];
      } else {
        assert t[j - 1] in t;
      }
    }
  }

  /** The distinct values of `s` in ascending order. */
  function SortedUnique(s: seq<int>): (r: seq<int>)
    ensures StrictlyIncreasing(r)
    ensures forall y :: y in r <==> y in s
  {
    if |s| == 0 then []
    else
      assert forall y :: y in s <==> y == s[0] || y in s[1..];
      InsertUnique(s[0], SortedUnique(s[1..]))
  }

  /** A strictly increasing sequence is determined by its elements: whatever
      order and duplicates the input had, there is one sorted distinct list. */
  lemma {:induction false} StrictlyIncreasingUnique(a: seq<int>, b: seq<int>)
    requires StrictlyIncreasing(a) && StrictlyIncreasing(b)
    requires forall y :: y in a <==> y in b
    ensures a == b
  {
    if |a| > 0 {
      assert a[0] in a;
    }
    if |b| > 0 {
      assert b[0] in b;
    }
    if |a| > 0 && |b| > 0 {
      assert a[0] in b && b[0] in a;
      assert a[0] == b[0];
      forall y
        ensures y in a[1..] <==> y in b[1..]
      {
        if y in a[1..] {
          assert y in b && y != b[0];
        }
        if y in b[1..] {
          assert y in a && y != a[0];
        }
      }
      StrictlyIncreasingUnique(a[1..], b[1..]);
      assert a == [a[0]] + a[1..] && b == [b[0]] + b[1..];
    }
  }
}

=== FILE: text.dfy ===
/** The Python string operations the filename parser relies on:
    `str.split(sep)`, `str.strip(chars)`, `int(str)` and the `in`
    substring test behind `str.contains`. */
module Text {
  import opened Results

  /** `sep.join(parts)`. */
  function Join(parts: seq<string>, sep: char): string
  {
    if |parts| == 0 then ""
    else if |parts| == 1 then parts[0]
    else parts[0] + [sep] + Join(parts[1..], sep)
  }

  /** `s.split(sep)`: the maximal `sep`-free pieces between separators. */
  function Split(s: string, sep: char): (parts: seq<string>)
    ensures |parts| >= 1
    ensures forall i :: 0 <= i < |parts| ==> sep !in parts[i]
  {
    if |s| == 0 then [""]
    else
      var rest := Split(s[1..], sep);
      if s[0] == sep then [""] + rest
      else [[s[0]] + rest[0]] + rest[1..]
  }

  /** Joining the pieces with the separator gives back the string split. */
  lemma {:induction false} JoinSplit(s: string, sep: char)
    ensures Join(Split(s, sep), sep) == s
  {
    if |s| > 0 {
      var rest := Split(s[1..], sep);
      JoinSplit(s[1..], sep);
      assert s == [s[0]] + s[1..];
      if s[0] == sep {
        assert ([""] + rest)[1..] == rest;
      } else {
        var parts := [[s[0]] + rest[0]] + rest[1..];
        assert |rest| > 1 ==> Join(rest, sep) == rest[0] + [sep] + Join(rest[1..], sep);
        assert |rest| > 1 ==> parts[1..] == rest[1..];
      }
    }
  }

  /** Splitting a `sep`-free piece followed by a separator. */
  lemma {:induction false} SplitPieceThen(p: string, sep: char, t: string)
    requires sep !in p
    ensures Split(p + [sep] + t, sep) == [p] + Split(t, sep)
    decreases |p|
  {
    if |p| == 0 {
      assert p + [sep] + t == [sep] + t;
      assert ([sep] + t)[1..] == t;
    } else {
      SplitPieceThen(p[1..], sep, t);
      var s := p + [sep] + t;
      assert s[0] == p[0] && s[1..] == p[1..] + [sep] + t;
      var rest := Split(s[1..], sep);
      assert rest[0] == p[1..] && rest[1..] == Split(t, sep);
      assert p[0] in p;
      assert Split(s, sep) == [[s[0]] + rest[0]] + rest[1..];
      assert [p[0]] + p[1..] == p;
    }
  }

  /** A `sep`-free string is a single piece. */
  lemma {:induction false} SplitPiece(p: string, sep: char)
    requires sep !in p
    ensures Split(p, sep) == [p]
    decreases |p|
  {
    if |p| > 0 {
      SplitPiece(p[1..], sep);
      assert [p[0]] + p[1..] == p;
    }
  }

  /** Split undoes Join whenever no piece holds the separator. */
  lemma {:induction false} SplitJoin(parts: seq<string>, sep: char)
    requires |parts| >= 1
    requires forall i :: 0 <= i < |parts| ==> sep !in parts[i]
    ensures Split(Join(parts, sep), sep) == parts
    decreases |parts|
  {
    if |parts| == 1 {
      SplitPiece(parts[0], sep);
    } else {
      SplitJoin(parts[1..], sep);
      SplitPieceThen(parts[0], sep, Join(parts[1..], sep));
      assert [parts[0]] + parts[1..] == parts;
    }
  }

  /** Where `s.lstrip(chars)` begins, scanning from position `i`: the first
      position at or after `i` whose character is not in `chars`. */
  function LeadFrom(s: string, chars: set<char>, i: nat): (k: nat)
    requires i <= |s|
    ensures i <= k <= |s|
    ensures forall m :: i <= m < k ==> s[m] in chars
    ensures k < |s| ==> s[k] !in chars
    decreases |s| - i
  {
    if i < |s| && s[i] in chars then LeadFrom(s, chars, i + 1) else i
  }

  /** Where `rstrip(chars)` ends, scanning back from position `j` but not
      past `lo`: one past the last position below `j` whose character is not
      in `chars`, or `lo`. */
  function TrailFrom(s: string, chars: set<char>, lo: nat, j: nat): (k: nat)
    requires lo <= j <= |s|
    ensures lo <= k <= j
    ensures forall m :: k <= m < j ==> s[m] in chars
    ensures k > lo ==> s[k - 1] !in chars
    decreases j
  {
    if j > lo && s[j - 1] in chars then TrailFrom(s, chars, lo, j - 1) else j
  }

  /** How many leading characters `s.lstrip(chars)` removes. */
  function Lead(s: string, chars: set<char>): nat
    ensures Lead(s, chars) <= |s|
  {
    LeadFrom(s, chars, 0)
  }

  /** `s.strip(chars)`: removes every leading and every trailing character that
      belongs to the SET `chars`; it is not the removal of a substring. The
      result is a slice of `s` whose outside lies wholly in `chars` and whose
      two ends do not. */
  function Strip(s: string, chars: set<char>): (r: string)
    ensures Lead(s, chars) + |r| <= |s|
    ensures r == s[Lead(s, chars)..Lead(s, chars) + |r|]
    ensures forall k :: 0 <= k < Lead(s, chars) ==> s[k] in chars
    ensures forall k :: Lead(s, chars) + |r| <= k < |s| ==> s[k] in chars
    ensures |r| > 0 ==> r[0] !in chars && r[|r| - 1] !in chars
  {
    var a := Lead(s, chars);
    var b := TrailFrom(s, chars, a, |s|);
    s[a..b]
  }

  /** Stripping twice strips nothing more. */
  lemma StripIdempotent(s: string, chars: set<char>)
    ensures Strip(Strip(s, chars), chars) == Strip(s, chars)
  {
    var r := Strip(s, chars);
    StripKeepsCore(r, chars);
  }

  /** A string whose two ends lie outside `chars` is left as it is. */
  lemma StripKeepsCore(s: string, chars: set<char>)
    requires |s| > 0 ==> s[0] !in chars && s[|s| - 1] !in chars
    ensures Strip(s, chars) == s
  {
    assert Lead(s, chars) == 0;
    assert TrailFrom(s, chars, 0, |s|) == |s|;
    assert s[0..|s|] == s;
  }

  /** The set of characters of `s`, the argument `str.strip` really uses. */
  function CharSet(s: string): (cs: set<char>)
    ensures forall c :: c in cs <==> c in s
  {
    set c | c in s
  }

  /** Stripping `chars` off `prefix + core + suffix` gives back `core` when
      every character around it is in `chars` and its two ends are not. */
  lemma StripAround(prefix: string, core: string, suffix: string, chars: set<char>)
    requires |core| > 0 && core[0] !in chars && core[|core| - 1] !in chars
    requires forall c :: c in prefix ==> c in chars
    requires forall c :: c in suffix ==> c in chars
    ensures Strip(prefix + core + suffix, chars) == core
  {
    var s := prefix + core + suffix;
    var a := |prefix|;
    var b := |prefix| + |core|;
    LeadAround(s, chars, a, b, 0);
    TrailAround(s, chars, a, b, |s|);
    assert s[a..b] == core;
  }

  /** Scanning forward from inside a run of `chars` stops where the run does. */
  lemma {:induction false} LeadAround(s: string, chars: set<char>, a: nat, b: nat, i: nat)
    requires i <= a < b <= |s| && s[a] !in chars
    requires forall m :: i <= m < a ==> s[m] in chars
    ensures LeadFrom(s, chars, i) == a
    decreases a - i
  {
    if i < a {
      LeadAround(s, chars, a, b, i + 1);
    }
  }

  /** Scanning back from inside a run of `chars` stops where the run does. */
  lemma {:induction false} TrailAround(s: string, chars: set<char>, a: nat, b: nat, j: nat)
    requires a < b <= j <= |s| && s[b - 1] !in chars
    requires forall m :: b <= m < j ==> s[m] in chars
    ensures TrailFrom(s, chars, a, j) == b
    decreases j
  {
    if b < j {
      TrailAround(s, chars, a, b, j - 1);
    }
  }

  /** `StripAround` with nothing before the core. */
  lemma StripTrailing(core: string, suffix: string, chars: set<char>)
    requires |core| > 0 && core[0] !in chars && core[|core| - 1] !in chars
    requires forall c :: c in suffix ==> c in chars
    ensures Strip(core + suffix, chars) == core
  {
    StripAround("", core, suffix, chars);
    assert "" + core + suffix == core + suffix;
  }

  /** `StripAround` with nothing after the core. */
  lemma StripLeading(prefix: string, core: string, chars: set<char>)
    requires |core| > 0 && core[0] !in chars && core[|core| - 1] !in chars
    requires forall c :: c in prefix ==> c in chars
    ensures Strip(prefix + core, chars) == core
  {
    StripAround(prefix, core, "", chars);
    assert prefix + core + "" == prefix + core;
  }

  predicate IsDigit(c: char) {
    '0' <= c <= '9'
  }

  /** One or more ASCII decimal digits. */
  predicate IsNumeral(s: string) {
    |s| > 0 && forall i :: 0 <= i < |s| ==> IsDigit(s[i])
  }

  /** The value of a string of decimal digits (leading zeros allowed). */
  function DigitsValue(s: string): nat
    requires forall i :: 0 <= i < |s| ==> IsDigit(s[i])
  {
    if |s| == 0 then 0
    else
      assert IsDigit(s[|s| - 1]);
      DigitsValue(s[..|s| - 1]) * 10 + (s[|s| - 1] as int - '0' as int)
  }

  /** An optional `+` or `-` followed by a numeral: the forms of `int(str)`
      this model accepts. */
  predicate IsIntLiteral(s: string) {
    IsNumeral(s) || (|s| > 0 && (s[0] == '+' || s[0] == '-') && IsNumeral(s[1..]))
  }

  /** `int(s)`, with `None` for the ValueError. */
  function ParseInt(s: string): (r: Option<int>)
    ensures r.Some? <==> IsIntLiteral(s)
  {
    if IsNumeral(s) then Some(DigitsValue(s))
    else if |s| > 0 && s[0] == '+' && IsNumeral(s[1..]) then Some(DigitsValue(s[1..]))
    else if |s| > 0 && s[0] == '-' && IsNumeral(s[1..]) then Some(0 - DigitsValue(s[1..]))
    else None
  }

  /** The decimal numeral of `n` without leading zeros, `str(n)`. */
  function ShowNat(n: nat): (s: string)
    ensures IsNumeral(s)
  {
    var d := ['0' + ((n % 10) as char)];
    if n < 10 then d else ShowNat(n / 10) + d
  }

  /** `str(n)` for any integer. */
  function ShowInt(n: int): string
  {
    if n < 0 then "-" + ShowNat(-n) else ShowNat(n)
  }

  lemma {:induction false} DigitsOfShowNat(n: nat)
    ensures DigitsValue(ShowNat(n)) == n
  {
    var s := ShowNat(n);
    if n >= 10 {
      DigitsOfShowNat(n / 10);
      assert s[..|s| - 1] == ShowNat(n / 10);
    }
  }

  /** `int(str(n)) == n`. */
  lemma ParseShowInt(n: int)
    ensures ParseInt(ShowInt(n)) == Some(n)
  {
    if n < 0 {
      DigitsOfShowNat(-n);
      var s := ShowInt(n);
      assert s[1..] == ShowNat(-n);
    } else {
      DigitsOfShowNat(n);
    }
  }

  /** `k` zero digits, the padding of a `{:07d}` field. */
  function Zeros(k: nat): (z: string)
    ensures |z| == k && forall i :: 0 <= i < k ==> z[i] == '0'
  {
    seq(k, i => '0')
  }

  /** Leading zeros do not change the value of a string of digits. */
  lemma {:induction false} DigitsIgnoreZeros(k: nat, t: string)
    requires forall i :: 0 <= i < |t| ==> IsDigit(t[i])
    ensures forall i :: 0 <= i < |Zeros(k) + t| ==> IsDigit((Zeros(k) + t)[i])
    ensures DigitsValue(Zeros(k) + t) == DigitsValue(t)
    decreases |t|, k
  {
    var s := Zeros(k) + t;
    if |t| == 0 {
      if k > 0 {
        DigitsIgnoreZeros(k - 1, t);
        assert s[..|s| - 1] == Zeros(k - 1) + t;
      }
    } else {
      var u := t[..|t| - 1];
      DigitsIgnoreZeros(k, u);
      assert s[..|s| - 1] == Zeros(k) + u;
    }
  }

  /** `int()` of a numeral, with or without a sign, is its value. */
  lemma ParseNumeral(t: string)
    requires IsNumeral(t)
    ensures ParseInt(t) == Some(DigitsValue(t))
    ensures ParseInt("+" + t) == Some(DigitsValue(t))
    ensures ParseInt("-" + t) == Some(-(DigitsValue(t) as int))
  {
    assert ("+" + t)[1..] == t && !IsDigit(("+" + t)[0]);
    assert ("-" + t)[1..] == t && !IsDigit(("-" + t)[0]);
  }

  /** `int()` reads a numeral with leading zeros and an optional sign: zero
      padding and a `+` leave the value alone, a `-` negates it. */
  lemma ParsePadded(k: nat, n: nat)
    ensures ParseInt(Zeros(k) + ShowNat(n)) == Some(n)
    ensures ParseInt("+" + Zeros(k) + ShowNat(n)) == Some(n)
    ensures ParseInt("-" + Zeros(k) + ShowNat(n)) == Some(-(n as int))
  {
    var t := Zeros(k) + ShowNat(n);
    DigitsIgnoreZeros(k, ShowNat(n));
    DigitsOfShowNat(n);
    ParseNumeral(t);
    assert "+" + Zeros(k) + ShowNat(n) == "+" + t;
    assert "-" + Zeros(k) + ShowNat(n) == "-" + t;
  }

  /** `p in s`: `p` occurs as a contiguous substring of `s`. */
  predicate HasInfix(s: string, p: string)
    decreases |s|
  {
    if |s| < |p| then false
    else s[..|p|] == p || HasInfix(s[1..], p)
  }
}
